=== FILE: README.md ===
# gmail-paytm-sync, modelled in Dafny

The repository is a set of Node.js scripts. They read Paytm payment
notification mails from a Gmail mailbox, scrape the amount, order id,
account name and UPI id out of the HTML body, and POST the result to a
payment-sync HTTP endpoint (the *sink*). The model covers the five scripts
that do this work:

- `others/test_new.js` is the full polling engine. It reads a start-up
  *watermark* (a Unix-seconds cursor) from a checkpoint endpoint. It then
  loops forever. Each pass lists the Paytm mails newer than the watermark
  that lack the `PROCESSED` label, visits them oldest first, posts and labels
  each one, and moves the watermark to the newest message it labelled. When
  the watermark has moved, the loop writes it back to the checkpoint
  endpoint.
- `test_new.js` is the earlier polling engine. It reads the checkpoint
  through `new Date`, visits messages in the order Gmail lists them, posts
  the raw `Date` header, and never writes the watermark back.
- `test.js` and `test_working.js` handle the single newest mail per run.
  The first labels what it has dealt with; the second never labels.
- `index.js` is the push handler. A Pub/Sub notification names one message,
  and the handler posts its fields if the message is a Paytm payment mail.

Modules, one per file:

- `Base`: `Option`, `Max`, and `Seconds`, which is `Math.floor(ms / 1000)`.
- `Text`: JavaScript's `\s` set, ASCII case folding, `trim`, substring
  search, and the rupee sign.
- `Rewrite`: `String.prototype.replace` with a global regular expression.
  It is written as a left-to-right scanner over the patterns the scripts
  use. The eight global replaces of `cleanHtmlText` need five kinds of
  pattern: a literal, `<br>`, a closing tag, any tag, and a whitespace run.
- `HtmlText`: the `cleanHtmlText` pipeline.
- `MimeParts`: the MIME part tree and `findHtmlBody`.
- `FieldExtract`: the leftmost-match field patterns of `extractData` and
  `extractPaytmData`.
- `Mailbox`: what a handler learns about one message, and the remote calls
  it makes.
- `Checkpoint`: `getInitialServerTimestamp`, in both generations.
- `SyncBatch`: `processEmails`, in both generations.
- `Polling`: `startPolling`, in both generations.
- `SingleShot`: `processLatestEmail` in test.js and in test_working.js, plus
  `gmailPaytmSync`.

Every remote call is reduced to its outcome, which the model takes as an
input:
- whether `messages.get` answered;
- whether the sink POST resolved;
- whether the label call resolved;
- what the checkpoint GET returned.

Each listed message is reduced to a `Turn` by `Mailbox.Classify`: whether
it could be read, whether a body was located, and the fields `extractData`
finds in the cleaned body. `SyncBatch.ProcessMessages` runs
`processEmails` on the messages themselves through that classification.
The batch, polling and single-message logic is stated over `Turn`s.

The copies of `findHtmlBody` and `cleanHtmlText` in `test_new.js`,
`test.js` and `test_working.js` behave as those in `others/test_new.js`.
Their copies of `extractData` are identical in the five modelled fields
(amount, order id, account name, transaction count, UPI id), and differ
only in the date-time key (see "Left out"). Each is modelled once and cited
in `others/test_new.js`.

Where the code departs from the behaviour a sync of this kind is
expected to have, the model follows the code:
- A failed sink POST might be expected to stop the rest of the batch. In every
  polling script the failure is caught inside the per-message `try`, and
  the loop goes on to the next message. A later message that succeeds then
  moves the watermark past the failed one (`SyncBatch.FailedPostOvertaken`).
- The last saved value might be expected to stay unchanged when the write-back fails.
  `updateServerTimestamp` swallows the error instead, and `startPolling`
  sets `lastSavedTime` anyway (`Polling.UpdateOutcomeIgnored`).
- The seconds-or-milliseconds rule for the stored checkpoint holds
  only in `others/test_new.js`. `test_new.js` hands a stored number to
  `new Date`, which reads it as milliseconds
  (`Checkpoint.GenerationsDisagreeOnSeconds`).
- A payment text such as `In Account of Jane Doe … Nov 26` would be
  expected to give the account name `Jane Doe`. The account pattern is
  case-insensitive and ends at the first `Transaction`, `Nov`, `Dec` or
  `Jan`, and `Jan` already matches at the start of `Jane`. The lazy capture
  is therefore empty, and `|| null` turns the account name into null
  (`FieldExtract.JaneEndsAccountAtOnce`). The amount `1,234.50` of the same
  example is extracted as intended (`FieldExtract.ExampleAmountExtracted`).

## Model

| member | source | states |
|---|---|---|
| Text.Trim | others/test_new.js:132 | The result has no leading or trailing whitespace. It is a contiguous slice of the input, and everything cut from either end is whitespace. |
| Text.TrimOfTrimmed | others/test_new.js:132 | Trimming text that already has no surrounding whitespace returns it unchanged. |
| Rewrite.MatchLen | others/test_new.js:124-131 | What each replace pattern matches at a position. A literal matches exactly when the text starts with it. A closing tag matches exactly when the text starts with it in any letter case. `<[^>]+>` matches exactly at a `<` that has a later `>` with at least one character between, and the match ends at the first `>`. `\s+` consumes the whole whitespace run. The `<br\s*\/?>` case is stated by the two lemmas below. |
| Rewrite.LineBreakIsBrTag | others/test_new.js:124 | A `<br\s*\/?>` match is a `<br` tag: `<br` in any case, a whitespace run, at most one `/`, then `>`. |
| Rewrite.LineBreakMatchesBrTag | others/test_new.js:124 | Every prefix that is such a tag is matched, and the match has exactly that length. |
| Rewrite.ReplaceAll | others/test_new.js:124-131 | A global replace never lengthens the text, and it empties only the empty text. Every character of the result other than the replacement comes from the input. |
| Rewrite.LiteralRemoved | others/test_new.js:129-130 | After a global replace of a literal by a character that does not occur in it, the literal no longer occurs anywhere in the result, including across replacement boundaries. |
| Rewrite.TagsRemoved | others/test_new.js:128 | After replacing every `<[^>]+>` match with a space, the result contains no further match of that pattern. |
| Rewrite.SpacesCollapsed | others/test_new.js:131 | After replacing every `\s+` run with one space, no two whitespace characters are adjacent, every whitespace character is a plain space, and the first character is whitespace exactly when it was before. |
| Rewrite.TagTransfer | others/test_new.js:128-131 | The later rewrites never create a tag: if the output of a rewrite (replacement not `<` or `>`) has a tag match, so did its input. |
| Rewrite.OccurrenceTransfer | others/test_new.js:129-131 | A rewrite whose replacement character is not in a word never creates an occurrence of that word. |
| Rewrite.TagFreeUnchanged | others/test_new.js:124-128 | The tag-matching rewrites leave text without any tag match unchanged. |
| Rewrite.LiteralAbsentUnchanged | others/test_new.js:129-130 | A literal replace leaves text unchanged when the literal does not occur in it. |
| Rewrite.CollapsedUnchanged | others/test_new.js:131 | Collapsing whitespace leaves text unchanged when its whitespace is already single plain spaces. |
| HtmlText.CleanHtmlText | others/test_new.js:121-134 | The cleaned text has no surrounding whitespace and no line breaks. Its whitespace is single plain spaces. It contains no `&#8377;`, no `&nbsp;` and nothing `<[^>]+>` matches. |
| HtmlText.CleanIdempotent | others/test_new.js:121-134 | Cleaning already-cleaned text returns it unchanged. |
| HtmlText.BlockTagSeparates | others/test_new.js:121-134 | Two words with no whitespace, `<` or `&`, joined by `<br>`, `</tr>`, `</p>` or `</div>`, come out as the two words joined by one space. |
| HtmlText.NormalFormFixed | others/test_new.js:121-134 | Text already in the promised shape comes back unchanged. That shape is: no surrounding, doubled or non-plain whitespace, no `&#8377;` or `&nbsp;`, and no tag. So the shape pins the result down for such inputs. |
| MimeParts.FindHtmlBody | others/test_new.js:107-119 | A body that is found has data. A top-level HTML part with data is returned before anything nested. Null means no top-level part is HTML with data. |
| MimeParts.FindHtmlBodyIsFirstInPreOrder | others/test_new.js:107-119 | `findHtmlBody` returns the body of the first `text/html` part with data in depth-first pre-order of the part tree. It returns null exactly when there is no such part. |
| MimeParts.FirstHtml | others/test_new.js:107-119 | The reference search over a flat list: None exactly when no HTML part with data exists; otherwise the body of the first such part. |
| MimeParts.LocateBody | others/test_new.js:198-199 | A top-level body with data wins, whatever its MIME type. Otherwise the first HTML part with data in pre-order is used. No body is found exactly when neither exists, and a body that is found is never empty. |
| FieldExtract.FirstMatch | others/test_new.js:138-142 | `String.prototype.match` reports a position where the pattern matches. None means no position matches. |
| FieldExtract.FirstMatchIsLeftmost | others/test_new.js:138-142 | No position before the reported one matches, so the match is the leftmost. |
| FieldExtract.DecimalEnd | others/test_new.js:138 | The optional `(?:\.\d{1,2})` group is taken greedily. It is taken exactly when a point and a digit follow the digit run, and it takes a second digit exactly when one follows. |
| FieldExtract.FieldValue | others/test_new.js:138-142 | A field is null exactly when its label pattern matches nowhere. Otherwise it is the group of a leftmost match (`IsMatchGroup`). That group is the maximal run of the field's character class after the label and optional whitespace, with the greedy decimal group for the amount. Without the decimal tail (every field but the amount) the group is non-empty and made only of that class. The amount's group is a non-empty run of digits and commas, optionally followed by a point and one or two digits. |
| FieldExtract.FieldValueAt | others/test_new.js:138-142 | At the leftmost matching position, whichever it is, the field value is exactly the group taken there. |
| FieldExtract.AccountCapture | others/test_new.js:140 | The account capture is missing exactly when `In Account of … (Transaction\|Nov\|Dec\|Jan)` matches nowhere. A capture never spans a line terminator. |
| FieldExtract.AccountCaptureAt | others/test_new.js:140 | At the leftmost match of the account pattern, the capture is the text from after the label and its whitespace up to the lazy end. |
| FieldExtract.LazyEnd | others/test_new.js:140 | The end the lazy `(.*?)` settles on lies between its start and the end of the text, and the text up to it holds no line terminator. |
| FieldExtract.LazyEndTerminated | others/test_new.js:140 | The end the lazy `(.*?)` settles on is followed, after optional whitespace, by a closing keyword (or a digit). |
| FieldExtract.LazyEndIsLeast | others/test_new.js:140 | No earlier end is followed by the closing keyword, so the capture is the shortest the lazy quantifier allows. |
| FieldExtract.LazyEndNoneIsExhaustive | others/test_new.js:140 | When no end is found, no end before the first line terminator is followed by the closing keyword. |
| FieldExtract.NonEmptyTrimmed | others/test_new.js:140 | `?.trim() \|\| null` gives null for a missing or blank capture; otherwise a non-empty string without surrounding whitespace. |
| FieldExtract.ExtractData | others/test_new.js:136-148 | The amount is null exactly when nowhere in the text does `₹`, then optional whitespace, then a digit or a comma occur. So on `₹ ,` the amount is `,`. A present amount has the shape digits-and-commas, then optionally a point and one or two digits. The order id is alphanumeric, the UPI id is alphanumeric with `@` and `.`, and the transaction count is digits, each non-empty. The account name is non-empty and trimmed, and null when the account pattern matches nowhere. |
| FieldExtract.ExtractDataGroups | others/test_new.js:138-143 | The amount, order id, transaction count and UPI id are each the group of the leftmost match of their pattern, or null when it matches nowhere. |
| FieldExtract.ExtractDataAccountAt | others/test_new.js:140 | At the leftmost match of the account pattern, the account name is the trimmed lazy group, or null when that group is blank. |
| FieldExtract.JaneEndsAccountAtOnce | others/test_new.js:140 | On `In Account of Jane Doe Nov`, the account name is null: `Jan` matches at the start of `Jane`, so the lazy group is empty. |
| FieldExtract.ExampleAmountExtracted | others/test_new.js:138 | On `₹1,234.50 Order`, the amount is `1,234.50`, with both decimal digits. |
| FieldExtract.ExtractDataIgnoresLabelCase | others/test_new.js:139-142 | The `i` flag: texts that differ only in letter case yield the same presence of order id, UPI id and transaction count, and order ids that differ only in case. |
| FieldExtract.BlankLineBreaks | index.js:26 | Every `\r` and `\n` becomes a space and every other character is kept, so the text keeps its length and has no line breaks. |
| FieldExtract.ExtractPaytmData | index.js:25-36 | The amount is null exactly when nowhere in the line-break-blanked text does the misread rupee sign, then optional whitespace, then a digit or a comma occur. The amount is digits and commas without a decimal part. The order id is upper-case letters and digits. The UPI id is alphanumeric with `@` and no `.`. The account name is trimmed, and null exactly when the account pattern matches nowhere. |
| FieldExtract.ExtractPaytmGroups | index.js:29-33 | In the blanked text, the amount, order id, UPI id and transaction count are each the group of the leftmost match of their case-sensitive pattern, or null when it matches nowhere. |
| FieldExtract.ExtractPaytmAccountAt | index.js:31 | At the leftmost match of the account pattern, the account name is the trimmed lazy group, kept even when blank. |
| FieldExtract.PaytmAccountMayBeEmpty | index.js:31 | On `In Account of 5`, the push handler yields an empty account name where `extractData` yields null. `?? null` keeps `""`, and the lazy capture stops at the first digit. |
| FieldExtract.PaytmOrderIdIsCaseSensitive | index.js:30 | On `order id: A1`, the push handler finds no order id while `extractData` finds `A1`. |
| Checkpoint.Normalise | others/test_new.js:49-55 | A number above 9,999,999,999 is read as milliseconds and floored to seconds; anything else is kept as seconds. The result is at most the threshold exactly when the input is below (threshold + 1) × 1000. |
| Checkpoint.NormaliseIdempotent | others/test_new.js:49-55 | For every number below (9,999,999,999 + 1) × 1000, normalising a normalised value changes nothing. A larger millisecond value floors to a number still above the threshold, which a second pass would divide again. |
| Checkpoint.InitialCursor | others/test_new.js:28-72 | A failed GET gives now minus one hour. A falsy value gives now minus one day. A number, or a numeric string, goes through the magnitude rule. A date string gives its instant in seconds, and an unparseable one gives now minus one day. |
| Checkpoint.SecondsAndMillisAgree | others/test_new.js:46-55 | From 10,000,000 s up to the threshold, a checkpoint stored in seconds and any instant within that second stored in milliseconds give the same cursor. |
| Checkpoint.EarlyMillisReadAsSeconds | others/test_new.js:49-55 | Below 10,000,000 s, the millisecond form of an instant is mistaken for seconds. |
| Checkpoint.WrittenCursorReadBack | others/test_new.js:43-55 | A cursor the loop writes back, from 1 up to 9,999,999,999, is what the next start-up reads. A larger one would be read as milliseconds. |
| Checkpoint.InitialCursorByDate | test_new.js:26-48 | A failed GET gives now minus three days, and a falsy value now minus one day. A number is read as milliseconds when `new Date` accepts it, and otherwise gives now minus one day. A string gives its parsed instant, or now minus one day. |
| Checkpoint.GenerationsDisagreeOnSeconds | test_new.js:37-43 | A seconds checkpoint from 1000 up is read by the date-based start-up as milliseconds. The cursor lands before 10,000,000 s and below what the magnitude rule gives. |
| Mailbox.Classify | others/test_new.js:192-209 | A message is unreadable exactly when the get failed or the payload has no body object. Otherwise its seconds are the floored internal date. It has no body exactly when `LocateBody` finds none, and no amount exactly when extraction from the cleaned body gives a null amount. A present amount always has amount shape. |
| SyncBatch.HeaderTimestamp | others/test_new.js:225-229 | The API timestamp is the `Date` header's instant floored to seconds when the header parses, and the internal date in seconds otherwise. |
| SyncBatch.TxnTime | others/test_new.js:212-242 | `txn_time` is the body's instant in seconds, unless it is absent or floors to 0, which `\|\|` treats as false; then it is the header timestamp. |
| SyncBatch.PayloadFor | others/test_new.js:232-243 | The writing-back generation posts the four fields with the header timestamp and the transaction time. The read-only generation (test_new.js:170-172) posts all fields, the raw `Date` header, and its seconds, or null when the header does not parse. |
| SyncBatch.GenerationsPostSameFields | others/test_new.js:225-243 | The two generations post the same four extracted fields (test_new.js:170-172). The writing-back generation's timestamp is the reading one's `unixtimestamp` when the header parses, and the internal date's seconds where the reading one sends null. |
| SyncBatch.TxnTimeFallsBack | others/test_new.js:212-242 | The transaction time differs from the header time only by being the body time. It is 0 only when the header time is 0 too. |
| SyncBatch.Visit | others/test_new.js:184-267 | The calls for one message: the get comes first. A POST is made exactly when there is an amount, and it carries this message's payload. The label call is made exactly when there is no body, no amount, or a resolved POST, and always after the POST. The watermark moves to the message's seconds, if later, exactly when the label call completed. Otherwise it is unchanged. |
| SyncBatch.Fold | others/test_new.js:183-268 | Over a sequence of messages, the watermark never drops. It is at least the seconds of every message whose label call completed, and equals either the input or one of those. The messages are fetched in sequence order. The calls are each message's own calls, one message after the other. |
| SyncBatch.VisitCallsIgnoreCursor | others/test_new.js:184-267 | The calls made for a message do not depend on the watermark before it. |
| SyncBatch.FoldPerMessage | others/test_new.js:183-268 | With distinct ids, the joined log labels a message exactly when its turn reaches the label call. It POSTs a message exactly when it has an amount, and then with its own payload. |
| SyncBatch.VisitOrder | others/test_new.js:178 | The writing-back generation visits the list reversed; the read-only one (test_new.js:140) visits it as listed. |
| SyncBatch.ProcessEmails | others/test_new.js:161-271 | An empty list returns the cursor with no call. Otherwise the new cursor is the maximum of the input cursor and the seconds of exactly the messages whose label call completed. Every listed message is fetched once, in visiting order, and the calls are each message's own calls, one message after the other. |
| SyncBatch.ProcessPerMessage | others/test_new.js:161-271 | With distinct ids, whatever the other messages do, a pass labels a message exactly when its turn reaches the label call. It POSTs a message exactly when an amount was extracted, and then with that message's payload. |
| SyncBatch.ProcessMessages | others/test_new.js:182-268 | Over the messages themselves, the watermark never drops. It reaches the internal date of every labelled message, that is, a readable one that had no amount or whose POST resolved, and that was then labelled. It is either the input cursor or the internal date in seconds of one such message. |
| SyncBatch.MessageCalls | others/test_new.js:192-258 | With distinct ids, a message is POSTed exactly when its located body yields an amount under `extractData(cleanHtmlText(...))`, with the payload built from those fields. It is labelled exactly when it was readable and either had no amount or its POST resolved. |
| SyncBatch.NoBodyLabelledUnposted | others/test_new.js:197-205 | A readable message whose body cannot be located is labelled and never POSTed. |
| SyncBatch.CursorIgnoresOrder | others/test_new.js:178 | Reversing the list changes which calls are made first, but never the watermark a pass returns. |
| SyncBatch.FailedPostOvertaken | others/test_new.js:245-267 | A message whose POST throws is never labelled. A newer message that succeeds after it still moves the watermark past it, so the next `after:` query skips the undelivered payment. |
| Polling.Start | others/test_new.js:278-279 | The loop starts with the watermark and the last saved value both equal to the start-up cursor. |
| Polling.NextCursor | others/test_new.js:288-294 | The watermark never drops. A pass that throws leaves it unchanged; otherwise it moves to what `processEmails` returned. |
| Polling.Advance | others/test_new.js:283-305 | One iteration. The watermark becomes what `processEmails` returned when that is later (`NextCursor`), so it never drops, and a failed pass leaves it unchanged. A write-back is sent exactly when the watermark is past the last saved value, and then it carries the watermark, which becomes the last saved value. |
| Polling.Iterate | others/test_new.js:283-305 | One iteration, as the loop sees it. The watermark becomes what `processEmails` returned when that is later, so it never drops, and a write-back is sent exactly when the watermark passes the last saved value. It then carries the watermark, which becomes the last saved value. |
| Polling.UpdateOutcomeIgnored | others/test_new.js:74-87 | Whether the write-back POST succeeds makes no difference to the loop's next state. |
| Polling.SavedTracksCursor | others/test_new.js:301-305 | Once the last saved value equals the watermark, it keeps doing so. A write-back is sent exactly when the iteration moved the watermark. |
| Polling.Cursors | others/test_new.js:283-294 | The watermark after a run of iterations, each pass starting from the watermark the previous one left. It is never below the starting cursor. |
| Polling.Poll | others/test_new.js:274-310 | Over any finite run, the final watermark is the fold (`Cursors`) of the passes' answers from the start-up cursor. It never drops below the start-up cursor, and the last saved value equals it. The values written back strictly increase and lie above the start-up cursor, up to the final watermark. Some value is written back exactly when the watermark moved, and the last one is the final watermark. |
| Polling.IterateReadOnly | test_new.js:211-217 | The read-only loop keeps `processEmails`' answer when it is later. A failed pass leaves the watermark unchanged. |
| Polling.PollReadOnly | test_new.js:199-226 | The read-only loop's final watermark is the fold (`Cursors`) of its passes' answers from the date-based start-up cursor, and it never drops below that cursor. |
| SingleShot.ProcessLatestLabelled | test.js:95-173 | Only the first listed message is touched, and a failed list rejects the run. The POST is made exactly when there is an amount and carries the extracted fields. The label call is made exactly when there is no amount or the POST resolved, and after the POST. The run rejects exactly when the message was unreadable or an amount-less message could not be labelled. |
| SingleShot.ProcessLatestUnlabelled | test_working.js:81-139 | The same walk never labels. The POST is made exactly when there is an amount, and the run rejects exactly when the list or the get failed or the payload has no body object. |
| SingleShot.LabelsAreTheOnlyDifference | test.js:141-172 | Without their label calls, the two single-message handlers make the same calls. They end differently exactly when an amount-less message could not be labelled. |
| SingleShot.FirstPartText | index.js:20-22 | The push handler reads only the first part's data, and reads "" when there is no first part or it has no data. |
| SingleShot.GmailPaytmSync | index.js:38-67 | No event data, unparseable data, or a missing id: no call is made. At most one get and one POST are made, and never a label call. The POST is made exactly when the fetched text mentions `Payment Received` and `no-reply@paytm.com`, and it carries `extractPaytmData` of that text. |
| SingleShot.PushPostsCleanFields | index.js:58-61 | Every POST a push makes is for the notified id. Its amount, order id and UPI id are made only of their patterns' characters. |

## Left out

- The date-time field and its regular expression are not modelled. `others/test_new.js` calls it `datetimeString`, `test.js` and `test_working.js` call it `datetime`, and `test_new.js` has none. The instant the body's date-time parses to is an input of the model (`Mail.bodyTimeMs`), as is the instant of the `Date` header.
- `Mail.headerDateMs` is not tied to `Mail.dateHeader`. A mail with no Date header but a parsed header instant, which no real message has, can be represented. In the same way, `Stored.Text` carries `Number(s)` and `new Date(s)` as independent inputs, so combinations no string produces can be represented too.
- `new Date(string)` and `Number(string)` are inputs of the model (`Stored.Text` carries both results). Date-string parsing is not modelled.
- Base64 decoding is not modelled: a body carries its raw data, whose emptiness JavaScript tests, and its decoded text.
- Strings are sequences of code points. UTF-16 surrogate pairs and invalid UTF-8 replacement are not modelled.
- `getOrCreateLabelId` is not modelled: its failure is folded into the failure of the list call (`listed` is None), and label creation has no other effect on the model.
- Gmail, axios and Pub/Sub are reduced to the outcomes of their calls (answered or threw).
- The thirty-second poll sleep, the per-message throttle, all logging, `authorize` and `process.exit` on missing tokens are not modelled.
- Polling.Poll: the `while (true)` loop is modelled as a finite prefix of its iterations.
- Checkpoint.InitialCursor: a stored JSON boolean, object or fractional number is not modelled, and only integer values are. A fractional numeric string such as `"1.5"` is not modelled either: the script turns it into a number, but the model's numeric reading of a string holds integers only. Numbers are unbounded in the model, whereas above 2^53 the script's doubles lose precision.
- Mailbox.Classify: a message whose `internalDate` is not a number (NaN) or whose payload lacks a `headers` array is not modelled.
- SingleShot.GmailPaytmSync: an `emailMessageId` that is not a string is not modelled, and the sink POST's outcome is irrelevant because every failure is caught.
- auth.js, get-token.js, others/setup-gmail-watch.js and test copy.js are not part of this model.

=== FILE: base.dfy ===
/** Small shared vocabulary: the optional value every JavaScript `null`
    or `undefined` becomes, the maximum of two timestamps, and the
    millisecond-to-second conversion every script uses. */
module Base {

  datatype Option<+T> = None | Some(value: T)

  function Max(a: int, b: int): (r: int)
    ensures r >= a && r >= b
    ensures r == a || r == b
  {
    if a >= b then a else b
  }

  /** `Math.floor(ms / 1000)`; Dafny's division by a positive divisor
      already rounds down, negative instants included. */
  function Seconds(ms: int): (r: int)
    ensures r * 1000 <= ms < r * 1000 + 1000
  {
    ms / 1000
  }
}

=== FILE: checkpoint.dfy ===
/** `getInitialServerTimestamp`: the start-up cursor, in Unix seconds,
    resolved from the checkpoint the sink stores. Two generations exist:
    others/test_new.js:28-72 tells seconds from milliseconds by magnitude,
    test_new.js:26-48 hands whatever is stored to `new Date`. */
module Checkpoint {
  import opened Base

  /** `response.data?.last_mail_timestamp` as JSON gives it. For a string,
      `numeric` is `Number(s)` when that is an integer (None when it is
      NaN) and `parsedMs` is `new Date(s).getTime()` (None when NaN). */
  datatype Stored =
    | Missing
    | Number(n: int)
    | Text(s: string, numeric: Option<int>, parsedMs: Option<int>)

  /** The GET of the stored checkpoint either throws or answers. */
  datatype Fetch = Threw | Answered(value: Stored)

  /** Values `!timeData` holds for: absent, the number 0, the empty string. */
  predicate Falsy(v: Stored) {
    v.Missing? || v == Number(0) || (v.Text? && v.s == "")
  }

  /** Above this a stored number is read as milliseconds. */
  const MillisThreshold: int := 9999999999

  const DaySeconds: int := 86400
  const HourSeconds: int := 3600
  const ThreeDaySeconds: int := 259200

  /** Largest magnitude `new Date(n)` accepts, in milliseconds. */
  const MaxDateMs: int := 8640000000000000

  /** The magnitude rule of others/test_new.js:49-55. */
  function Normalise(n: int): (r: int)
    ensures n > MillisThreshold ==> r * 1000 <= n < r * 1000 + 1000
    ensures n <= MillisThreshold ==> r == n
    ensures r <= MillisThreshold <==> n < (MillisThreshold + 1) * 1000
  {
    if n > MillisThreshold then Seconds(n) else n
  }

  /** `getInitialServerTimestamp` of others/test_new.js, `nowMs` standing
      for `Date.now()`. */
  function InitialCursor(f: Fetch, nowMs: int): (r: int)
    ensures f.Threw? ==> r == Seconds(nowMs) - HourSeconds
    ensures f.Answered? && Falsy(f.value) ==> r == Seconds(nowMs) - DaySeconds
    ensures f.Answered? && f.value.Number? && f.value.n != 0 ==>
              (f.value.n > MillisThreshold ==> r * 1000 <= f.value.n < r * 1000 + 1000)
              && (f.value.n <= MillisThreshold ==> r == f.value.n)
    ensures f.Answered? && f.value.Text? && f.value.s != "" && f.value.numeric.Some? ==>
              r == Normalise(f.value.numeric.value)
    ensures f.Answered? && f.value.Text? && f.value.s != "" && f.value.numeric.None? ==>
              if f.value.parsedMs.Some? then r == Seconds(f.value.parsedMs.value)
              else r == Seconds(nowMs) - DaySeconds
  {
    match f
    case Threw => Seconds(nowMs) - HourSeconds
    case Answered(v) =>
      if Falsy(v) then Seconds(nowMs) - DaySeconds
      else match v
        case Number(n) => Normalise(n)
        case Text(_, numeric, parsedMs) =>
          if numeric.Some? then Normalise(numeric.value)
          else if parsedMs.Some? then Seconds(parsedMs.value)
          else Seconds(nowMs) - DaySeconds
  }

  /** `getInitialServerTimestamp` of test_new.js: no magnitude rule, a
      stored number is taken as milliseconds by `new Date(n)`, and a
      failed fetch falls back three days. */
  function InitialCursorByDate(f: Fetch, nowMs: int): (r: int)
    ensures f.Threw? ==> r == Seconds(nowMs) - ThreeDaySeconds
    ensures f.Answered? && Falsy(f.value) ==> r == Seconds(nowMs) - DaySeconds
    ensures f.Answered? && f.value.Number? && f.value.n != 0 ==>
              if -MaxDateMs <= f.value.n <= MaxDateMs then r * 1000 <= f.value.n < r * 1000 + 1000
              else r == Seconds(nowMs) - DaySeconds
    ensures f.Answered? && f.value.Text? && f.value.s != "" ==>
              if f.value.parsedMs.Some? then r == Seconds(f.value.parsedMs.value)
              else r == Seconds(nowMs) - DaySeconds
  {
    match f
    case Threw => Seconds(nowMs) - ThreeDaySeconds
    case Answered(v) =>
      if Falsy(v) then Seconds(nowMs) - DaySeconds
      else match v
        case Number(n) =>
          if -MaxDateMs <= n <= MaxDateMs then Seconds(n) else Seconds(nowMs) - DaySeconds
        case Text(_, _, parsedMs) =>
          if parsedMs.Some? then Seconds(parsedMs.value) else Seconds(nowMs) - DaySeconds
  }

  /** A checkpoint stored in seconds and any instant within the same
      second stored in milliseconds resolve to the same cursor, for every
      second from 1970-04-26 up to the threshold. */
  lemma SecondsAndMillisAgree(s: int, x: int, nowMs: int)
    requires 10000000 <= s <= MillisThreshold && 0 <= x < 1000
    ensures InitialCursor(Answered(Number(s)), nowMs) == s
    ensures InitialCursor(Answered(Number(s * 1000 + x)), nowMs) == s
  {
    assert s * 1000 + x > MillisThreshold;
    assert (s * 1000 + x) / 1000 == s;
  }

  /** Below 1970-04-26 the rule mistakes milliseconds for seconds: the
      millisecond encoding of such an instant comes back a thousand
      times too large. */
  lemma EarlyMillisReadAsSeconds(s: int, nowMs: int)
    requires 1 <= s < 10000000
    ensures InitialCursor(Answered(Number(s * 1000)), nowMs) == s * 1000
    ensures InitialCursor(Answered(Number(s * 1000)), nowMs) != s
  {
  }

  /** What the polling loop writes back (a positive cursor in seconds)
      is what the next start-up reads, so a restart resumes where the
      loop left off. */
  lemma WrittenCursorReadBack(c: int, nowMs: int)
    requires 0 < c <= MillisThreshold
    ensures InitialCursor(Answered(Number(c)), nowMs) == c
  {
  }

  /** Resolving is idempotent on what it can return from a number:
      reading a resolved cursor back changes nothing. */
  lemma NormaliseIdempotent(n: int)
    requires n < (MillisThreshold + 1) * 1000
    ensures Normalise(Normalise(n)) == Normalise(n)
  {
  }

  /** The date-based generation reads a seconds checkpoint as
      milliseconds, landing in the first days of 1970: the two
      generations disagree on every stored number from 1000 on. */
  lemma GenerationsDisagreeOnSeconds(c: int, nowMs: int)
    requires 1000 <= c <= MillisThreshold
    ensures InitialCursorByDate(Answered(Number(c)), nowMs) == Seconds(c)
    ensures InitialCursorByDate(Answered(Number(c)), nowMs) < InitialCursor(Answered(Number(c)), nowMs)
    ensures InitialCursorByDate(Answered(Number(c)), nowMs) < 10000000
  {
  }
}

=== FILE: field_extract.dfy ===
/** The field patterns of `extractData` (test.js:83-92, test_working.js:68-79,
    test_new.js:97-105, others/test_new.js:136-148) and of `extractPaytmData`
    (index.js:25-36), each written as the leftmost-match scanner that
    `String.prototype.match` runs for it. Only capture group 1 is kept. */
module FieldExtract {
  import opened Base
  import opened Text

  /** The character class of a captured run. */
  datatype CharClass =
    | Digits          // \d
    | DigitsCommas    // [\d,]
    | Alnum           // [A-Z0-9] under the i flag
    | UpperAlnum      // [A-Z0-9] without it
    | UpiChars        // [A-Za-z0-9@.]
    | UpiCharsNoDot   // [A-Za-z0-9@]

  predicate InClass(c: char, k: CharClass) {
    match k
    case Digits => IsDigit(c)
    case DigitsCommas => IsDigit(c) || c == ','
    case Alnum => IsAsciiAlnum(c)
    case UpperAlnum => IsUpper(c) || IsDigit(c)
    case UpiChars => IsAsciiAlnum(c) || c == '@' || c == '.'
    case UpiCharsNoDot => IsAsciiAlnum(c) || c == '@'
  }

  /** A pattern `lead\s*(class+)` (or `lead(class+)` when `spaceAfter` is
      false). A `folded` lead is matched under the i flag and written in
      lower case. No class holds a `\s` character, so the greedy choices of
      `\s*` and `class+` are the only ones backtracking could ever accept. */
  datatype Rule = Rule(lead: string, folded: bool, spaceAfter: bool, cls: CharClass)

  /** What ends the lazy capture of `In Account of\s*(.*?)\s*…`. */
  datatype Terminator =
    | Keywords(words: seq<string>) // (?:Transaction|Nov|Dec|Jan), i flag, lower case here
    | Digit                        // \d{1,2}

  datatype Matcher =
    | Field(rule: Rule)
    | AccountOf(folded: bool, term: Terminator)

  predicate LabelAt(s: string, i: nat, word: string, folded: bool) {
    && i + |word| <= |s|
    && forall k :: 0 <= k < |word| ==>
         (if folded then Lower(s[i + k]) == word[k] else s[i + k] == word[k])
  }

  /** Where the captured run starts, once the lead has matched at `i`. */
  function ValueStart(s: string, i: nat, rule: Rule): (j: nat)
    requires i + |rule.lead| <= |s|
    ensures i + |rule.lead| <= j <= |s|
  {
    if rule.spaceAfter then SkipSpace(s, i + |rule.lead|) else i + |rule.lead|
  }

  predicate TerminatorAt(s: string, j: nat, folded: bool, term: Terminator) {
    match term
    case Keywords(words) => exists k :: 0 <= k < |words| && LabelAt(s, j, words[k], folded)
    case Digit => j < |s| && IsDigit(s[j])
  }

  /** The lazy `(.*?)` followed by `\s*` and the terminator: the least end
      `e >= q` such that `s[q..e]` crosses no line terminator and, after the
      `\s` run at `e`, the terminator matches. */
  function LazyEnd(s: string, e: nat, folded: bool, term: Terminator): (r: Option<nat>)
    requires e <= |s|
    ensures r.Some? ==> e <= r.value <= |s|
    ensures r.Some? ==> forall k :: e <= k < r.value ==> !IsLineTerminator(s[k])
    decreases |s| - e
  {
    if TerminatorAt(s, SkipSpace(s, e), folded, term) then Some(e)
    else if e < |s| && !IsLineTerminator(s[e]) then LazyEnd(s, e + 1, folded, term)
    else None
  }

  /** The end `LazyEnd` finds is followed by the terminator. */
  lemma {:induction false} LazyEndTerminated(s: string, e: nat, folded: bool, term: Terminator)
    requires e <= |s|
    ensures LazyEnd(s, e, folded, term).Some? ==>
              TerminatorAt(s, SkipSpace(s, LazyEnd(s, e, folded, term).value), folded, term)
    decreases |s| - e
  {
    if !TerminatorAt(s, SkipSpace(s, e), folded, term) && e < |s| && !IsLineTerminator(s[e]) {
      LazyEndTerminated(s, e + 1, folded, term);
    }
  }

  /** It is the least such end: no earlier end is followed by the
      terminator. */
  lemma {:induction false} LazyEndIsLeast(s: string, e: nat, folded: bool, term: Terminator)
    requires e <= |s|
    ensures LazyEnd(s, e, folded, term).Some? ==>
              forall k :: e <= k < LazyEnd(s, e, folded, term).value ==> !TerminatorAt(s, SkipSpace(s, k), folded, term)
    decreases |s| - e
  {
    if !TerminatorAt(s, SkipSpace(s, e), folded, term) && e < |s| && !IsLineTerminator(s[e]) {
      LazyEndIsLeast(s, e + 1, folded, term);
    }
  }

  /** When `LazyEnd` finds no end, every end up to the first line
      terminator fails. */
  lemma {:induction false} LazyEndNoneIsExhaustive(s: string, e: nat, folded: bool, term: Terminator)
    requires e <= |s|
    ensures LazyEnd(s, e, folded, term).None? ==>
              forall k :: e <= k <= |s| && (forall x :: e <= x < k ==> !IsLineTerminator(s[x])) ==>
                !TerminatorAt(s, SkipSpace(s, k), folded, term)
    decreases |s| - e
  {
    if !TerminatorAt(s, SkipSpace(s, e), folded, term) && e < |s| && !IsLineTerminator(s[e]) {
      LazyEndNoneIsExhaustive(s, e + 1, folded, term);
    }
  }

  function AccountLabel(folded: bool): string {
    if folded then "in account of" else "In Account of"
  }

  /** `rule` matches at `i`: the lead, then (after `\s*`) a class character. */
  predicate FieldAt(s: string, i: nat, rule: Rule) {
    && LabelAt(s, i, rule.lead, rule.folded)
    && var j := ValueStart(s, i, rule); j < |s| && InClass(s[j], rule.cls)
  }

  /** `rule`'s pattern matches at no position of `s`. */
  predicate NoField(s: string, rule: Rule) {
    forall q :: 0 <= q <= |s| ==> !FieldAt(s, q, rule)
  }

  /** The account pattern matches at `i`. Its leading `\s*` is taken
      greedily: giving characters back to it reaches no terminator position
      the greedy choice does not reach. */
  predicate AccountAt(s: string, i: nat, folded: bool, term: Terminator) {
    && LabelAt(s, i, AccountLabel(folded), folded)
    && LazyEnd(s, SkipSpace(s, i + |AccountLabel(folded)|), folded, term).Some?
  }

  /** The account pattern matches at no position of `s`. */
  predicate NoAccount(s: string, folded: bool, term: Terminator) {
    forall q :: 0 <= q <= |s| ==> !AccountAt(s, q, folded, term)
  }

  predicate MatchesAt(s: string, i: nat, m: Matcher) {
    match m
    case Field(rule) => FieldAt(s, i, rule)
    case AccountOf(folded, term) => AccountAt(s, i, folded, term)
  }

  /** The least index at or after `i` holding true. */
  function FirstTrue(hits: seq<bool>, i: nat): (r: Option<nat>)
    requires i <= |hits|
    ensures r.Some? ==> i <= r.value < |hits| && hits[r.value]
    ensures r.Some? ==> forall q :: i <= q < r.value ==> !hits[q]
    ensures r.None? ==> forall q :: i <= q < |hits| ==> !hits[q]
    decreases |hits| - i
  {
    if i == |hits| then None
    else if hits[i] then Some(i)
    else FirstTrue(hits, i + 1)
  }

  /** For each position of `s`, the end included, whether `m` matches there. */
  function Hits(s: string, m: Matcher): (h: seq<bool>)
    ensures |h| == |s| + 1
    ensures forall q :: 0 <= q <= |s| ==> h[q] == MatchesAt(s, q, m)
  {
    seq(|s| + 1, q requires 0 <= q <= |s| => MatchesAt(s, q, m))
  }

  /** `String.prototype.match` without the `g` flag: the leftmost position
      where `m` matches. */
  function FirstMatch(s: string, m: Matcher): (r: Option<nat>)
    ensures r.Some? ==> r.value <= |s| && MatchesAt(s, r.value, m)
    ensures r.None? ==> forall q :: 0 <= q <= |s| ==> !MatchesAt(s, q, m)
  {
    FirstTrue(Hits(s, m), 0)
  }

  /** No position before the one `FirstMatch` reports matches. */
  lemma FirstMatchIsLeftmost(s: string, m: Matcher)
    ensures FirstMatch(s, m).Some? ==> forall q :: 0 <= q < FirstMatch(s, m).value ==> !MatchesAt(s, q, m)
  {
    var h := Hits(s, m);
    if FirstMatch(s, m).Some? {
      forall q | 0 <= q < FirstMatch(s, m).value ensures !MatchesAt(s, q, m) {
        assert !h[q];
      }
    }
  }

  /** The end of the greedy run of `cls` characters starting at `j`. */
  function RunEnd(s: string, j: nat, cls: CharClass): (e: nat)
    requires j <= |s|
    ensures j <= e <= |s|
    ensures forall k :: j <= k < e ==> InClass(s[k], cls)
    ensures e < |s| ==> !InClass(s[e], cls)
    decreases |s| - j
  {
    if j < |s| && InClass(s[j], cls) then RunEnd(s, j + 1, cls) else j
  }

  /** `(?:\.\d{1,2})?` taken greedily at `e`: the group is taken whenever
      a point and a digit follow, with a second digit whenever there is one. */
  function DecimalEnd(s: string, e: nat): (d: nat)
    requires e <= |s|
    ensures d == e || (e + 2 <= d <= e + 3 && d <= |s| && s[e] == '.'
                       && forall k :: e < k < d ==> IsDigit(s[k]))
    ensures d > e <==> e + 1 < |s| && s[e] == '.' && IsDigit(s[e + 1])
    ensures d > e ==> (d == e + 3 <==> e + 2 < |s| && IsDigit(s[e + 2]))
  {
    if e + 1 < |s| && s[e] == '.' && IsDigit(s[e + 1]) then
      if e + 2 < |s| && IsDigit(s[e + 2]) then e + 3 else e + 2
    else e
  }

  /** `rule` matches at `p` and at no earlier position. */
  predicate LeftmostField(s: string, p: nat, rule: Rule) {
    p <= |s| && FieldAt(s, p, rule) && forall q :: 0 <= q < p ==> !FieldAt(s, q, rule)
  }

  /** Group 1 of a match of `rule` at `p`: the longest run of the class
      after the lead (and its `\s*`), with the decimal tail when `decimals`. */
  function CaptureAt(s: string, p: nat, rule: Rule, decimals: bool): string
    requires p <= |s| && FieldAt(s, p, rule)
  {
    var j := ValueStart(s, p, rule);
    var e := RunEnd(s, j, rule.cls);
    s[j..if decimals then DecimalEnd(s, e) else e]
  }

  /** `v` is `s.match(rule)?.[1]`: null when the pattern matches nowhere,
      otherwise group 1 of the leftmost match. */
  predicate IsMatchGroup(s: string, rule: Rule, decimals: bool, v: Option<string>) {
    match v
    case None => NoField(s, rule)
    case Some(x) => exists p: nat :: p <= |s| && LeftmostField(s, p, rule) && x == CaptureAt(s, p, rule, decimals)
  }

  /** Capture group 1 of `rule`, with the optional decimal tail when `decimals`. */
  function FieldValue(s: string, rule: Rule, decimals: bool): (r: Option<string>)
    ensures r.None? <==> NoField(s, rule)
    ensures IsMatchGroup(s, rule, decimals, r)
    ensures r.Some? && !decimals ==> |r.value| > 0 && forall c :: c in r.value ==> InClass(c, rule.cls)
  {
    var first := FirstMatch(s, Field(rule));
    assert forall q :: MatchesAt(s, q, Field(rule)) == FieldAt(s, q, rule);
    FirstMatchIsLeftmost(s, Field(rule));
    match first
    case None => None
    case Some(p) =>
      assert LeftmostField(s, p, rule);
      Some(CaptureAt(s, p, rule, decimals))
  }

  /** The converse: once the leftmost match is known, the value is its
      group, so `IsMatchGroup` leaves no choice. */
  lemma FieldValueAt(s: string, rule: Rule, decimals: bool, p: nat)
    requires LeftmostField(s, p, rule)
    ensures FieldValue(s, rule, decimals) == Some(CaptureAt(s, p, rule, decimals))
  {
    var r := FieldValue(s, rule, decimals);
    assert !NoField(s, rule);
    var p': nat :| p' <= |s| && LeftmostField(s, p', rule) && r.value == CaptureAt(s, p', rule, decimals);
    if p' < p {
      assert !FieldAt(s, p', rule);
    } else if p < p' {
      assert FieldAt(s, p, rule);
    }
  }

  /** Capture group 1 of the account pattern, before any trimming. */
  function AccountCapture(s: string, folded: bool, term: Terminator): (r: Option<string>)
    ensures r.None? <==> NoAccount(s, folded, term)
    ensures r.Some? ==> forall c :: c in r.value ==> !IsLineTerminator(c)
  {
    var first := FirstMatch(s, AccountOf(folded, term));
    NoFirstAccount(s, folded, term);
    match first
    case None => None
    case Some(p) =>
      AccountMatched(s, p, folded, term);
      GroupAvoidsLineTerminators(s, p, folded, term);
      Some(AccountGroupAt(s, p, folded, term))
  }

  /** The account pattern matches at `p` and at no earlier position. */
  predicate LeftmostAccount(s: string, p: nat, folded: bool, term: Terminator) {
    p <= |s| && AccountAt(s, p, folded, term) && forall q :: 0 <= q < p ==> !AccountAt(s, q, folded, term)
  }

  /** Group 1 of the account pattern matched at `p`: from the end of the
      greedy `\s*` after the label to the least end the lazy `(.*?)` allows. */
  function AccountGroupAt(s: string, p: nat, folded: bool, term: Terminator): string
    requires p <= |s| && AccountAt(s, p, folded, term)
  {
    var q := SkipSpace(s, p + |AccountLabel(folded)|);
    s[q..LazyEnd(s, q, folded, term).value]
  }

  /** Once the leftmost match is known, the capture is its group. */
  lemma AccountCaptureAt(s: string, folded: bool, term: Terminator, p: nat)
    requires LeftmostAccount(s, p, folded, term)
    ensures AccountCapture(s, folded, term) == Some(AccountGroupAt(s, p, folded, term))
  {
    FirstAccountAt(s, folded, term, p);
  }

  lemma FirstAccountAt(s: string, folded: bool, term: Terminator, p: nat)
    requires LeftmostAccount(s, p, folded, term)
    ensures FirstMatch(s, AccountOf(folded, term)) == Some(p)
  {
    var m := AccountOf(folded, term);
    assert MatchesAt(s, p, m);
    FirstMatchIsLeftmost(s, m);
    assert forall q :: 0 <= q < p ==> !MatchesAt(s, q, m);
  }

  lemma NoFirstAccount(s: string, folded: bool, term: Terminator)
    ensures FirstMatch(s, AccountOf(folded, term)).None? <==> NoAccount(s, folded, term)
  {
    if FirstMatch(s, AccountOf(folded, term)).None? {
      forall q | 0 <= q <= |s| ensures !AccountAt(s, q, folded, term) {
        assert !MatchesAt(s, q, AccountOf(folded, term));
      }
    }
  }

  /** Where the account pattern matches, the label fits and the lazy capture ends. */
  lemma AccountMatched(s: string, p: nat, folded: bool, term: Terminator)
    requires MatchesAt(s, p, AccountOf(folded, term))
    ensures AccountAt(s, p, folded, term)
  {
  }

  lemma GroupAvoidsLineTerminators(s: string, p: nat, folded: bool, term: Terminator)
    requires p <= |s| && AccountAt(s, p, folded, term)
    ensures forall c :: c in AccountGroupAt(s, p, folded, term) ==> !IsLineTerminator(c)
  {
    var q := SkipSpace(s, p + |AccountLabel(folded)|);
    CaptureAvoidsLineTerminators(s, q, LazyEnd(s, q, folded, term).value);
  }

  lemma CaptureAvoidsLineTerminators(s: string, q: nat, e: nat)
    requires q <= e <= |s|
    requires forall k :: q <= k < e ==> !IsLineTerminator(s[k])
    ensures forall c :: c in s[q..e] ==> !IsLineTerminator(c)
  {
    forall c | c in s[q..e] ensures !IsLineTerminator(c) {
      var k :| 0 <= k < e - q && s[q..e][k] == c;
      assert s[q + k] == c;
    }
  }

  /** The fields both extractors share (the date-time field is not modelled). */
  datatype Fields = Fields(
    amount: Option<string>,
    orderId: Option<string>,
    accountOf: Option<string>,
    transactionCount: Option<string>,
    fromUpi: Option<string>)

  /** Digits and commas, then optionally a point and one or two digits;
      `k` is where the digits-and-commas part ends. */
  predicate AmountShapeAt(v: string, k: int) {
    && 1 <= k <= |v|
    && (forall x :: 0 <= x < k ==> IsDigit(v[x]) || v[x] == ',')
    && (k == |v| || (v[k] == '.' && 2 <= |v| - k <= 3 && forall x :: k < x < |v| ==> IsDigit(v[x])))
  }

  predicate IsAmountText(v: string) {
    exists k :: 0 <= k <= |v| && AmountShapeAt(v, k)
  }

  const AmountRule := Rule([Rupee], false, true, DigitsCommas)
  const OrderIdRule := Rule("order id:", true, true, Alnum)
  const TransactionCountRule := Rule("transaction count #", true, false, Digits)
  const FromUpiRule := Rule("from", true, true, UpiChars)
  const AccountEnds := Keywords(["transaction", "nov", "dec", "jan"])

  /** `(m?.[1] || null)`-style post-processing of the account capture:
      trimmed, and an empty result is null. */
  function NonEmptyTrimmed(capture: Option<string>): (r: Option<string>)
    ensures r.Some? ==> r.value != "" && !IsSpace(r.value[0]) && !IsSpace(r.value[|r.value| - 1])
    ensures r.None? <==> capture.None? || Trim(capture.value) == ""
  {
    match capture
    case None => None
    case Some(c) => var t := Trim(c); if t == "" then None else Some(t)
  }

  lemma AmountHasShape(s: string)
    ensures FieldValue(s, AmountRule, true).Some? ==> IsAmountText(FieldValue(s, AmountRule, true).value)
  {
    var r := FieldValue(s, AmountRule, true);
    if r.Some? {
      var p: nat :| p <= |s| && LeftmostField(s, p, AmountRule) && r.value == CaptureAt(s, p, AmountRule, true);
      CaptureHasAmountShape(s, p);
    }
  }

  lemma CaptureHasAmountShape(s: string, p: nat)
    requires p <= |s| && FieldAt(s, p, AmountRule)
    ensures IsAmountText(CaptureAt(s, p, AmountRule, true))
  {
    var j := ValueStart(s, p, AmountRule);
    var e := RunEnd(s, j, DigitsCommas);
    assert AmountShapeAt(CaptureAt(s, p, AmountRule, true), e - j);
  }

  /** `extractData` of the polling scripts, on already-cleaned text. Each
      capture here is non-empty, so `|| null` only turns "no match" into null,
      except for the trimmed account name. */
  function ExtractData(text: string): (f: Fields)
    ensures NoAccount(text, true, AccountEnds) ==> f.accountOf.None?
    ensures f.amount.Some? ==> IsAmountText(f.amount.value)
    ensures f.amount.None? <==> NoField(text, AmountRule)
    ensures f.orderId.Some? ==> |f.orderId.value| > 0 && forall c :: c in f.orderId.value ==> InClass(c, Alnum)
    ensures f.fromUpi.Some? ==> |f.fromUpi.value| > 0 && forall c :: c in f.fromUpi.value ==> InClass(c, UpiChars)
    ensures f.transactionCount.Some? ==> |f.transactionCount.value| > 0
                                         && forall c :: c in f.transactionCount.value ==> InClass(c, Digits)
    ensures f.accountOf.Some? ==> f.accountOf.value != ""
                                  && !IsSpace(f.accountOf.value[0])
                                  && !IsSpace(f.accountOf.value[|f.accountOf.value| - 1])
  {
    AmountHasShape(text);
    var amount := FieldValue(text, AmountRule, true);
    var orderId := FieldValue(text, OrderIdRule, false);
    var accountOf := NonEmptyTrimmed(AccountCapture(text, true, AccountEnds));
    var transactionCount := FieldValue(text, TransactionCountRule, false);
    var fromUpi := FieldValue(text, FromUpiRule, false);
    Fields(amount, orderId, accountOf, transactionCount, fromUpi)
  }

  /** Each of the other four fields of `extractData` is group 1 of the
      leftmost match of its pattern, or null when there is none. */
  lemma ExtractDataGroups(text: string)
    ensures IsMatchGroup(text, AmountRule, true, ExtractData(text).amount)
    ensures IsMatchGroup(text, OrderIdRule, false, ExtractData(text).orderId)
    ensures IsMatchGroup(text, TransactionCountRule, false, ExtractData(text).transactionCount)
    ensures IsMatchGroup(text, FromUpiRule, false, ExtractData(text).fromUpi)
  {
  }

  /** The account name of `extractData` is the trimmed group of the
      leftmost match, or null when that trims to nothing. */
  lemma ExtractDataAccountAt(text: string, p: nat)
    requires LeftmostAccount(text, p, true, AccountEnds)
    ensures var g := Trim(AccountGroupAt(text, p, true, AccountEnds));
            ExtractData(text).accountOf == if g == "" then None else Some(g)
  {
    AccountCaptureAt(text, true, AccountEnds, p);
  }

  /** With the i flag the closing keyword `Jan` also matches the start of
      the name `Jane`, so the lazy group stops before the name and the
      account of the intended example text comes out null. */
  lemma JaneEndsAccountAtOnce()
    ensures ExtractData("In Account of Jane Doe Nov").accountOf == None
  {
    var s := "In Account of Jane Doe Nov";
    JaneGroupEmpty(s);
    ExtractDataAccountAt(s, 0);
  }

  lemma JaneGroupEmpty(s: string)
    requires s == "In Account of Jane Doe Nov"
    ensures LeftmostAccount(s, 0, true, AccountEnds)
    ensures AccountGroupAt(s, 0, true, AccountEnds) == []
  {
    JaneLabelled(s);
    JaneLazyEnd(s);
  }

  lemma JaneLabelled(s: string)
    requires s == "In Account of Jane Doe Nov"
    ensures LabelAt(s, 0, AccountLabel(true), true)
    ensures SkipSpace(s, 13) == 14
  {
    assert SkipSpace(s, 14) == 14;
  }

  lemma JaneLazyEnd(s: string)
    requires s == "In Account of Jane Doe Nov"
    ensures LazyEnd(s, 14, true, AccountEnds) == Some(14)
  {
    assert SkipSpace(s, 14) == 14;
    assert LabelAt(s, 14, AccountEnds.words[3], true);
  }

  /** The amount of the worked example: the digits and commas, then the
      point and two decimals. */
  lemma ExampleAmountExtracted()
    ensures ExtractData("\U{20B9}1,234.50 Order").amount == Some("1,234.50")
  {
    var s := "\U{20B9}1,234.50 Order";
    AmountIsFieldValue(s);
    AmountOfExample(s);
    AmountDigitsOfExample(s);
  }

  lemma AmountIsFieldValue(text: string)
    ensures ExtractData(text).amount == FieldValue(text, AmountRule, true)
  {
  }

  lemma AmountOfExample(s: string)
    requires s == "\U{20B9}1,234.50 Order"
    ensures FieldValue(s, AmountRule, true) == Some(s[1..9])
  {
    assert LabelAt(s, 0, [Rupee], false);
    assert SkipSpace(s, 1) == 1;
    assert LeftmostField(s, 0, AmountRule);
    assert RunEnd(s, 6, DigitsCommas) == 6;
    assert RunEnd(s, 1, DigitsCommas) == 6;
    assert DecimalEnd(s, 6) == 9;
    FieldValueAt(s, AmountRule, true, 0);
  }

  lemma AmountDigitsOfExample(s: string)
    requires s == "\U{20B9}1,234.50 Order"
    ensures s[1..9] == "1,234.50"
  {
  }

  /** Two texts that differ at most in the case of ASCII letters. */
  predicate SameUpToCase(s: string, t: string) {
    |s| == |t| && forall k :: 0 <= k < |s| ==> Lower(s[k]) == Lower(t[k])
  }

  /** Classes that the i flag leaves unchanged: all but `UpperAlnum`. */
  predicate CaseStable(cls: CharClass) {
    cls != UpperAlnum
  }

  lemma SliceUpToCase(s: string, t: string, j: nat, e: nat)
    requires SameUpToCase(s, t) && j <= e <= |s|
    ensures SameUpToCase(s[j..e], t[j..e])
  {
    assert forall k :: 0 <= k < e - j ==> s[j..e][k] == s[j + k] && t[j..e][k] == t[j + k];
  }

  lemma ClassUpToCase(c: char, d: char, cls: CharClass)
    requires Lower(c) == Lower(d) && CaseStable(cls)
    ensures InClass(c, cls) <==> InClass(d, cls)
  {
  }

  lemma {:induction false} SkipSpaceUpToCase(s: string, t: string, j: nat)
    requires SameUpToCase(s, t) && j <= |s|
    ensures SkipSpace(s, j) == SkipSpace(t, j)
    decreases |s| - j
  {
    if j < |s| {
      LowerKeepsSpace(s[j], t[j]);
      SkipSpaceUpToCase(s, t, j + 1);
    }
  }

  lemma {:induction false} RunEndUpToCase(s: string, t: string, j: nat, cls: CharClass)
    requires SameUpToCase(s, t) && j <= |s| && CaseStable(cls)
    ensures RunEnd(s, j, cls) == RunEnd(t, j, cls)
    decreases |s| - j
  {
    if j < |s| {
      ClassUpToCase(s[j], t[j], cls);
      RunEndUpToCase(s, t, j + 1, cls);
    }
  }

  lemma FieldAtUpToCase(s: string, t: string, q: nat, rule: Rule)
    requires SameUpToCase(s, t) && rule.folded && CaseStable(rule.cls)
    ensures FieldAt(s, q, rule) <==> FieldAt(t, q, rule)
  {
    if q + |rule.lead| <= |s| {
      SkipSpaceUpToCase(s, t, q + |rule.lead|);
      var j := ValueStart(s, q, rule);
      if j < |s| {
        ClassUpToCase(s[j], t[j], rule.cls);
      }
    }
  }

  lemma FirstFieldUpToCase(s: string, t: string, rule: Rule)
    requires SameUpToCase(s, t) && rule.folded && CaseStable(rule.cls)
    ensures FirstMatch(s, Field(rule)) == FirstMatch(t, Field(rule))
  {
    forall q: nat | q <= |s|
      ensures MatchesAt(s, q, Field(rule)) == MatchesAt(t, q, Field(rule))
    {
      FieldAtUpToCase(s, t, q, rule);
    }
    assert Hits(s, Field(rule)) == Hits(t, Field(rule));
  }

  /** A lead matched under the i flag finds the same position whatever the
      case of the text, and captures the same characters up to case. */
  lemma {:induction false} FoldedFieldIgnoresCase(s: string, t: string, rule: Rule)
    requires SameUpToCase(s, t) && rule.folded && CaseStable(rule.cls)
    ensures FieldValue(s, rule, false).Some? <==> FieldValue(t, rule, false).Some?
    ensures FieldValue(s, rule, false).Some? ==>
              SameUpToCase(FieldValue(s, rule, false).value, FieldValue(t, rule, false).value)
  {
    FirstFieldUpToCase(s, t, rule);
    var first := FirstMatch(s, Field(rule));
    if first.Some? {
      var p := first.value;
      assert MatchesAt(s, p, Field(rule));
      SkipSpaceUpToCase(s, t, p + |rule.lead|);
      var j := ValueStart(s, p, rule);
      assert j == ValueStart(t, p, rule);
      RunEndUpToCase(s, t, j, rule.cls);
      var e := RunEnd(s, j, rule.cls);
      assert FieldValue(s, rule, false) == Some(s[j..e]);
      assert FieldValue(t, rule, false) == Some(t[j..e]);
      SliceUpToCase(s, t, j, e);
    }
  }

  /** The order id, UPI id and transaction count of `extractData` do not
      depend on the case the mail writes their labels in. */
  lemma ExtractDataIgnoresLabelCase(s: string, t: string)
    requires SameUpToCase(s, t)
    ensures ExtractData(s).orderId.Some? <==> ExtractData(t).orderId.Some?
    ensures ExtractData(s).fromUpi.Some? <==> ExtractData(t).fromUpi.Some?
    ensures ExtractData(s).transactionCount.Some? <==> ExtractData(t).transactionCount.Some?
    ensures ExtractData(s).orderId.Some? ==> SameUpToCase(ExtractData(s).orderId.value, ExtractData(t).orderId.value)
  {
    FoldedFieldIgnoresCase(s, t, OrderIdRule);
    FoldedFieldIgnoresCase(s, t, FromUpiRule);
    FoldedFieldIgnoresCase(s, t, TransactionCountRule);
  }

  /** `text.replace(/\r|\n/g, " ")`. */
  function BlankLineBreaks(t: string): (r: string)
    ensures |r| == |t|
    ensures '\r' !in r && '\n' !in r
    ensures forall k :: 0 <= k < |t| && t[k] != '\r' && t[k] != '\n' ==> r[k] == t[k]
    ensures forall k :: 0 <= k < |t| && (t[k] == '\r' || t[k] == '\n') ==> r[k] == ' '
  {
    seq(|t|, k requires 0 <= k < |t| => if t[k] == '\r' || t[k] == '\n' then ' ' else t[k])
  }

  /** The rupee sign as UTF-8 bytes misread as Windows-1252, which is what
      the source text of index.js spells out. */
  const MisreadRupee: string := "\U{00E2}\U{201A}\U{00B9}"
  const PaytmAmountRule := Rule(MisreadRupee, false, true, DigitsCommas)
  const PaytmOrderIdRule := Rule("Order ID:", false, true, UpperAlnum)
  const PaytmTransactionCountRule := Rule("Transaction Count #", false, false, Digits)
  const PaytmFromUpiRule := Rule("From", false, true, UpiCharsNoDot)

  /** `extractPaytmData` of the push handler: case-sensitive labels, no
      decimal part, no `.` in the UPI id, `?? null` instead of `|| null`. */
  function ExtractPaytmData(text: string): (f: Fields)
    ensures f.accountOf.None? <==> NoAccount(BlankLineBreaks(text), false, Digit)
    ensures f.amount.None? <==> NoField(BlankLineBreaks(text), PaytmAmountRule)
    ensures f.amount.Some? ==> |f.amount.value| > 0 && forall c :: c in f.amount.value ==> InClass(c, DigitsCommas)
    ensures f.orderId.Some? ==> |f.orderId.value| > 0 && forall c :: c in f.orderId.value ==> InClass(c, UpperAlnum)
    ensures f.fromUpi.Some? ==> |f.fromUpi.value| > 0 && forall c :: c in f.fromUpi.value ==> InClass(c, UpiCharsNoDot)
    ensures f.accountOf.Some? ==> var a := f.accountOf.value; |a| > 0 ==> !IsSpace(a[0]) && !IsSpace(a[|a| - 1])
  {
    var t := BlankLineBreaks(text);
    var amount := FieldValue(t, PaytmAmountRule, false);
    var orderId := FieldValue(t, PaytmOrderIdRule, false);
    var capture := AccountCapture(t, false, Digit);
    var accountOf := if capture.None? then None else Some(Trim(capture.value));
    var transactionCount := FieldValue(t, PaytmTransactionCountRule, false);
    var fromUpi := FieldValue(t, PaytmFromUpiRule, false);
    Fields(amount, orderId, accountOf, transactionCount, fromUpi)
  }

  /** The push handler's four other fields are the groups of the leftmost
      matches of its case-sensitive patterns in the text with line breaks
      blanked, or null. */
  lemma ExtractPaytmGroups(text: string)
    ensures IsMatchGroup(BlankLineBreaks(text), PaytmAmountRule, false, ExtractPaytmData(text).amount)
    ensures IsMatchGroup(BlankLineBreaks(text), PaytmOrderIdRule, false, ExtractPaytmData(text).orderId)
    ensures IsMatchGroup(BlankLineBreaks(text), PaytmTransactionCountRule, false, ExtractPaytmData(text).transactionCount)
    ensures IsMatchGroup(BlankLineBreaks(text), PaytmFromUpiRule, false, ExtractPaytmData(text).fromUpi)
  {
  }

  /** The account name of `extractPaytmData` is the trimmed group of the
      leftmost match, kept even when empty. */
  lemma ExtractPaytmAccountAt(text: string, p: nat)
    requires LeftmostAccount(BlankLineBreaks(text), p, false, Digit)
    ensures ExtractPaytmData(text).accountOf == Some(Trim(AccountGroupAt(BlankLineBreaks(text), p, false, Digit)))
  {
    AccountCaptureAt(BlankLineBreaks(text), false, Digit, p);
  }

  /** The push handler keeps an empty account name where the polling
      scripts give null: its lazy capture may stop at once on a digit,
      while theirs needs one of the closing keywords. */
  lemma PaytmAccountMayBeEmpty()
    ensures ExtractPaytmData("In Account of 5").accountOf == Some("")
    ensures ExtractData("In Account of 5").accountOf == None
  {
    var s := "In Account of 5";
    assert BlankLineBreaks(s) == s;
    DigitEndsAccountAtOnce(s);
    KeywordlessAccountMissing(s);
  }

  lemma DigitEndsAccountAtOnce(s: string)
    requires s == "In Account of 5"
    ensures AccountCapture(s, false, Digit) == Some("")
  {
    assert LabelAt(s, 0, AccountLabel(false), false);
    assert SkipSpace(s, 14) == 14;
    assert SkipSpace(s, 13) == 14;
    assert LazyEnd(s, 14, false, Digit) == Some(14);
    assert MatchesAt(s, 0, AccountOf(false, Digit));
    assert FirstMatch(s, AccountOf(false, Digit)) == Some(0);
    assert AccountCapture(s, false, Digit) == Some(s[14..14]);
    assert s[14..14] == [];
  }

  lemma KeywordlessAccountMissing(s: string)
    requires s == "In Account of 5"
    ensures AccountCapture(s, true, AccountEnds) == None
  {
    NoKeywordInTail(s);
    forall q | 0 <= q <= |s| ensures !AccountAt(s, q, true, AccountEnds) {
      var w := AccountLabel(true);
      if q == 0 {
        assert SkipSpace(s, 14) == 14;
        assert SkipSpace(s, 13) == 14;
      } else if q + |w| <= |s| {
        assert Lower(s[q + 0]) != w[0];
      }
    }
  }

  /** No closing keyword fits in the last two characters of the example. */
  lemma NoKeywordInTail(s: string)
    requires s == "In Account of 5"
    ensures LazyEnd(s, 14, true, AccountEnds) == None
  {
    var words := ["transaction", "nov", "dec", "jan"];
    assert forall k :: 0 <= k < |words| ==> |words[k]| >= 3;
    assert SkipSpace(s, 15) == 15;
    assert SkipSpace(s, 14) == 14;
    assert !TerminatorAt(s, 15, true, AccountEnds);
    assert !TerminatorAt(s, 14, true, AccountEnds);
  }

  /** The push handler's order-id label is case-sensitive; the polling
      scripts' is not. */
  lemma PaytmOrderIdIsCaseSensitive()
    ensures ExtractPaytmData("order id: A1").orderId == None
    ensures ExtractData("order id: A1").orderId == Some("A1")
  {
    var s := "order id: A1";
    assert BlankLineBreaks(s) == s;
    CaseSensitiveLeadMissing(s);
    FoldedLeadFound(s);
  }

  lemma CaseSensitiveLeadMissing(s: string)
    requires s == "order id: A1"
    ensures FieldValue(s, PaytmOrderIdRule, false) == None
  {
    var w := PaytmOrderIdRule.lead;
    forall q | 0 <= q <= |s| ensures !LabelAt(s, q, w, false) {
      if q + |w| <= |s| {
        assert s[q + 0] != w[0];
      }
    }
    assert NoField(s, PaytmOrderIdRule);
  }

  lemma FoldedLeadFound(s: string)
    requires s == "order id: A1"
    ensures FieldValue(s, OrderIdRule, false) == Some("A1")
  {
    FoldedLeadCapture(s);
    OrderIdDigitsOfExample(s);
  }

  lemma FoldedLeadCapture(s: string)
    requires s == "order id: A1"
    ensures FieldValue(s, OrderIdRule, false) == Some(s[10..12])
  {
    assert LabelAt(s, 0, OrderIdRule.lead, true);
    assert SkipSpace(s, 10) == 10;
    assert SkipSpace(s, 9) == 10;
    assert LeftmostField(s, 0, OrderIdRule);
    assert RunEnd(s, 12, Alnum) == 12;
    assert RunEnd(s, 10, Alnum) == 12;
    FieldValueAt(s, OrderIdRule, false, 0);
  }

  lemma OrderIdDigitsOfExample(s: string)
    requires s == "order id: A1"
    ensures s[10..12] == "A1"
  {
  }
}

=== FILE: html_text.dfy ===
/** `cleanHtmlText`: the already-decoded HTML of a payment mail flattened
    to one line of text, as the same chain of eight global replaces and a
    final trim does it in
    every script (test.js:67-81, test_working.js:44-66, test_new.js:82-95,
    others/test_new.js:121-134). */
module HtmlText {
  import opened Text
  import opened Rewrite

  /** `<br>`, `</tr>`, `</p>` and `</div>` become line breaks, in that order. */
  function BreakBlocks(html: string): string {
    var a := ReplaceAll(html, LineBreak, '\n');
    var b := ReplaceAll(a, ClosingTag("tr"), '\n');
    var c := ReplaceAll(b, ClosingTag("p"), '\n');
    ReplaceAll(c, ClosingTag("div"), '\n')
  }

  /** Every remaining tag becomes one space. */
  function StripTags(t: string): string {
    ReplaceAll(t, AnyTag, ' ')
  }

  /** `&#8377;` becomes the rupee sign, then `&nbsp;` a space. */
  function DecodeEntities(t: string): string {
    ReplaceAll(ReplaceAll(t, Literal("&#8377;"), Rupee), Literal("&nbsp;"), ' ')
  }

  /** Every run of `\s` becomes one space. */
  function CollapseSpaces(t: string): string {
    ReplaceAll(t, SpaceRun, ' ')
  }

  function CleanHtmlText(html: string): (r: string)
    ensures |r| > 0 ==> !IsSpace(r[0]) && !IsSpace(r[|r| - 1])
    ensures SingleSpaced(r) && PlainSpaces(r)
    ensures '\n' !in r
    ensures !Contains(r, "&#8377;") && !Contains(r, "&nbsp;")
    ensures !HasTag(r)
  {
    var stripped := StripTags(BreakBlocks(html));
    var rupees := ReplaceAll(stripped, Literal("&#8377;"), Rupee);
    var decoded := ReplaceAll(rupees, Literal("&nbsp;"), ' ');
    var collapsed := CollapseSpaces(decoded);
    CleanShape(BreakBlocks(html), stripped, rupees, decoded, collapsed);
    Trim(collapsed)
  }

  /** The facts about each stage that the shape of the result rests on. */
  lemma CleanShape(blocks: string, stripped: string, rupees: string, decoded: string, collapsed: string)
    requires stripped == StripTags(blocks)
    requires rupees == ReplaceAll(stripped, Literal("&#8377;"), Rupee)
    requires decoded == ReplaceAll(rupees, Literal("&nbsp;"), ' ')
    requires collapsed == CollapseSpaces(decoded)
    ensures SingleSpaced(Trim(collapsed)) && PlainSpaces(Trim(collapsed))
    ensures !Contains(Trim(collapsed), "&#8377;") && !Contains(Trim(collapsed), "&nbsp;")
    ensures !HasTag(Trim(collapsed))
  {
    CleanSpacing(decoded, collapsed);
    CleanEntities(stripped, rupees, decoded, collapsed);
    CleanTags(blocks, stripped, rupees, decoded, collapsed);
  }

  lemma CleanSpacing(decoded: string, collapsed: string)
    requires collapsed == CollapseSpaces(decoded)
    ensures SingleSpaced(Trim(collapsed)) && PlainSpaces(Trim(collapsed))
  {
    SpacesCollapsed(decoded);
    TrimKeepsSpacing(collapsed);
  }

  lemma CleanEntities(stripped: string, rupees: string, decoded: string, collapsed: string)
    requires rupees == ReplaceAll(stripped, Literal("&#8377;"), Rupee)
    requires decoded == ReplaceAll(rupees, Literal("&nbsp;"), ' ')
    requires collapsed == CollapseSpaces(decoded)
    ensures !Contains(Trim(collapsed), "&#8377;") && !Contains(Trim(collapsed), "&nbsp;")
  {
    LiteralRemoved(stripped, "&#8377;", Rupee);
    OccurrenceTransfer(rupees, Literal("&nbsp;"), ' ', "&#8377;");
    OccurrenceTransfer(decoded, SpaceRun, ' ', "&#8377;");
    LiteralRemoved(rupees, "&nbsp;", ' ');
    OccurrenceTransfer(decoded, SpaceRun, ' ', "&nbsp;");
    TrimKeepsAbsence(collapsed, "&#8377;");
    TrimKeepsAbsence(collapsed, "&nbsp;");
  }

  lemma CleanTags(blocks: string, stripped: string, rupees: string, decoded: string, collapsed: string)
    requires stripped == StripTags(blocks)
    requires rupees == ReplaceAll(stripped, Literal("&#8377;"), Rupee)
    requires decoded == ReplaceAll(rupees, Literal("&nbsp;"), ' ')
    requires collapsed == CollapseSpaces(decoded)
    ensures !HasTag(Trim(collapsed))
  {
    TagsRemoved(blocks);
    TagTransfer(stripped, Literal("&#8377;"), Rupee);
    TagTransfer(rupees, Literal("&nbsp;"), ' ');
    TagTransfer(decoded, SpaceRun, ' ');
    TrimKeepsAbsence(collapsed, "&nbsp;");
  }

  /** Trimming takes a slice, and a slice keeps the absence of a word and
      of a tag match. */
  lemma TrimKeepsAbsence(c: string, w: string)
    ensures Contains(Trim(c), w) ==> Contains(c, w)
    ensures HasTag(Trim(c)) ==> HasTag(c)
  {
    var r := Trim(c);
    var a :| TrimmedSliceAt(c, r, a);
    assert r == c[a..][..|r|];
    ContainsPrefix(c[a..], |r|, w);
    ContainsSuffix(c, a, w);
    HasTagPrefix(c[a..], |r|);
    HasTagSuffix(c, a);
  }

  /** A slice also keeps the absence of doubled and of non-plain whitespace. */
  lemma TrimKeepsSpacing(c: string)
    ensures SingleSpaced(c) ==> SingleSpaced(Trim(c))
    ensures PlainSpaces(c) ==> PlainSpaces(Trim(c))
  {
    var r := Trim(c);
    var a :| TrimmedSliceAt(c, r, a);
    assert forall k :: 0 <= k < |r| ==> r[k] == c[a + k];
  }

  /** Cleaning clean text changes nothing: its output is a fixed point of
      every one of the eight replaces and of the trim. */
  lemma CleanIdempotent(html: string)
    ensures CleanHtmlText(CleanHtmlText(html)) == CleanHtmlText(html)
  {
    NormalFormFixed(CleanHtmlText(html));
  }

  /** The shape `CleanHtmlText` promises is exactly its set of fixed
      points: text with no edge space, no doubled or non-plain whitespace,
      no entity and no tag comes back unchanged, so the shape pins the
      result down for every input already in it. */
  lemma NormalFormFixed(r: string)
    requires |r| > 0 ==> !IsSpace(r[0]) && !IsSpace(r[|r| - 1])
    requires SingleSpaced(r) && PlainSpaces(r)
    requires !Contains(r, "&#8377;") && !Contains(r, "&nbsp;")
    requires !HasTag(r)
    ensures CleanHtmlText(r) == r
  {
    TagFreeUnchanged(r, LineBreak, '\n');
    TagFreeUnchanged(r, ClosingTag("tr"), '\n');
    TagFreeUnchanged(r, ClosingTag("p"), '\n');
    TagFreeUnchanged(r, ClosingTag("div"), '\n');
    assert BreakBlocks(r) == r;
    TagFreeUnchanged(r, AnyTag, ' ');
    LiteralAbsentUnchanged(r, "&#8377;", Rupee);
    LiteralAbsentUnchanged(r, "&nbsp;", ' ');
    assert DecodeEntities(StripTags(BreakBlocks(r))) == r;
    CollapsedUnchanged(r);
    TrimOfTrimmed(r);
  }

  /** A run of text the cleaner has nothing to do with: no `\s`, no `<`
      and no `&`. */
  predicate PlainWord(w: string) {
    |w| > 0 && forall k :: 0 <= k < |w| ==> !IsSpace(w[k]) && w[k] != '<' && w[k] != '&'
  }

  predicate NoLt(x: string) {
    forall k :: 0 <= k < |x| ==> x[k] != '<'
  }

  /** One of the tags the cleaner turns into a line break, written the
      way a mail usually writes it. */
  predicate BlockTag(tag: string) {
    tag == "<br>" || tag == "</tr>" || tag == "</p>" || tag == "</div>"
  }

  /** Two words joined by a block tag come out joined by one space: the
      tag becomes a line break and the line break a space. */
  lemma BlockTagSeparates(a: string, tag: string, b: string)
    requires PlainWord(a) && PlainWord(b) && BlockTag(tag)
    ensures CleanHtmlText(a + tag + b) == a + " " + b
  {
    BreakBlocksOnWords(a, tag, b);
    NewlineBecomesSpace(a, b);
  }

  lemma BreakBlocksOnWords(a: string, tag: string, b: string)
    requires PlainWord(a) && PlainWord(b) && BlockTag(tag)
    ensures BreakBlocks(a + tag + b) == a + "\n" + b
  {
    assert NoLt(a) && NoLt(b);
    NoLtJoined(a, b);
    if tag == "<br>" {
      BrBreaks(a, b);
    } else if tag == "</tr>" {
      TrBreaks(a, b);
    } else if tag == "</p>" {
      ParagraphBreaks(a, b);
    } else {
      DivBreaks(a, b);
    }
  }

  lemma BrBreaks(a: string, b: string)
    requires NoLt(a) && NoLt(b) && NoLt(a + "\n" + b)
    ensures BreakBlocks(a + "<br>" + b) == a + "\n" + b
  {
    var tag := "<br>";
    var s := tag + b;
    var nl := a + "\n" + b;
    assert NoLt(tag[1..]);
    assert s[..4] == tag;
    LineBreakMatchesBrTag(s, 4);
    TagStage(a, tag, b, LineBreak, '\n');
    var x1 := ReplaceAll(a + tag + b, LineBreak, '\n');
    assert x1 == nl;
    UntouchedByTags(nl, ClosingTag("tr"));
    UntouchedByTags(nl, ClosingTag("p"));
    UntouchedByTags(nl, ClosingTag("div"));
  }

  lemma TrBreaks(a: string, b: string)
    requires NoLt(a) && NoLt(b) && NoLt(a + "\n" + b)
    ensures BreakBlocks(a + "</tr>" + b) == a + "\n" + b
  {
    var tag := "</tr>";
    ClosingSpelled("tr", tag);
    var x0 := a + tag + b;
    var nl := a + "\n" + b;
    NoLineBreakBeforeSlash(tag, b);
    TagStage(a, tag, b, LineBreak, '\n');
    var x1 := ReplaceAll(x0, LineBreak, '\n');
    assert x1 == x0;
    ClosingMatch("tr", tag, b);
    TagStage(a, tag, b, ClosingTag("tr"), '\n');
    var x2 := ReplaceAll(x1, ClosingTag("tr"), '\n');
    assert x2 == nl;
    UntouchedByTags(nl, ClosingTag("p"));
    UntouchedByTags(nl, ClosingTag("div"));
  }

  lemma ParagraphBreaks(a: string, b: string)
    requires NoLt(a) && NoLt(b) && NoLt(a + "\n" + b)
    ensures BreakBlocks(a + "</p>" + b) == a + "\n" + b
  {
    var tag := "</p>";
    ClosingSpelled("p", tag);
    var s := tag + b;
    var x0 := a + tag + b;
    var nl := a + "\n" + b;
    NoLineBreakBeforeSlash(tag, b);
    TagStage(a, tag, b, LineBreak, '\n');
    var x1 := ReplaceAll(x0, LineBreak, '\n');
    assert x1 == x0;
    ClosingMisses(s, "tr");
    TagStage(a, tag, b, ClosingTag("tr"), '\n');
    var x2 := ReplaceAll(x1, ClosingTag("tr"), '\n');
    assert x2 == x0;
    ClosingMatch("p", tag, b);
    TagStage(a, tag, b, ClosingTag("p"), '\n');
    var x3 := ReplaceAll(x2, ClosingTag("p"), '\n');
    assert x3 == nl;
    UntouchedByTags(nl, ClosingTag("div"));
  }

  lemma DivBreaks(a: string, b: string)
    requires NoLt(a) && NoLt(b) && NoLt(a + "\n" + b)
    ensures BreakBlocks(a + "</div>" + b) == a + "\n" + b
  {
    var tag := "</div>";
    DivSurvivesEarlierStages(a, b);
    ClosingSpelled("div", tag);
    ClosingMatch("div", tag, b);
    TagStage(a, tag, b, ClosingTag("div"), '\n');
  }

  /** `</div>` is the last block tag replaced, and no earlier pattern
      touches it. */
  lemma DivSurvivesEarlierStages(a: string, b: string)
    requires NoLt(a) && NoLt(b)
    ensures var x0 := a + "</div>" + b;
            ReplaceAll(ReplaceAll(ReplaceAll(x0, LineBreak, '\n'), ClosingTag("tr"), '\n'),
                       ClosingTag("p"), '\n') == x0
  {
    var tag := "</div>";
    var s := tag + b;
    var x0 := a + tag + b;
    ClosingSpelled("div", tag);
    NoLineBreakBeforeSlash(tag, b);
    TagStage(a, tag, b, LineBreak, '\n');
    ClosingMisses(s, "tr");
    TagStage(a, tag, b, ClosingTag("tr"), '\n');
    ClosingMisses(s, "p");
    TagStage(a, tag, b, ClosingTag("p"), '\n');
  }

  /** A closing tag whose name starts with another letter does not match. */
  lemma ClosingMisses(s: string, name: string)
    requires |s| > 2 && |name| > 0 && Lower(s[2]) != name[0]
    ensures MatchLen(ClosingTag(name), s) == 0
  {
    assert ("</" + name + ">")[2] == name[0];
  }

  /** `<br` needs a `b` where a closing tag has its `/`. */
  lemma NoLineBreakBeforeSlash(tag: string, b: string)
    requires |tag| > 1 && tag[1] == '/'
    ensures MatchLen(LineBreak, tag + b) == 0
  {
    assert (tag + b)[1] == '/';
  }

  /** The three closing block tags, spelled out. */
  lemma ClosingSpelled(name: string, tag: string)
    requires || (name == "tr" && tag == "</tr>")
             || (name == "p" && tag == "</p>")
             || (name == "div" && tag == "</div>")
    ensures tag == "</" + name + ">" && NoLt(tag[1..])
    ensures forall k :: 0 <= k < |name| ==> IsLower(name[k])
  {
  }

  /** A closing tag written in lower case matches its own pattern. */
  lemma ClosingMatch(name: string, tag: string, b: string)
    requires tag == "</" + name + ">"
    requires forall k :: 0 <= k < |name| ==> IsLower(name[k])
    ensures MatchLen(ClosingTag(name), tag + b) == |tag|
  {
    assert forall k :: 0 <= k < |tag| ==> Lower(tag[k]) == tag[k];
    assert StartsWithFolded(tag + b, tag);
  }

  lemma NoLtJoined(a: string, b: string)
    requires NoLt(a) && NoLt(b)
    ensures NoLt(a + "\n" + b)
  {
  }

  lemma UntouchedByTags(x: string, p: Pattern)
    requires NoLt(x) && (p.LineBreak? || p.ClosingTag? || p.AnyTag?)
    ensures ReplaceAll(x, p, '\n') == x
  {
    Untouched(x, p, '\n');
  }

  /** One tag replace on a word, a tag and a word: the tag is replaced
      when the pattern matches it and the rest is copied. */
  lemma TagStage(a: string, tag: string, b: string, p: Pattern, rep: char)
    requires p.LineBreak? || p.ClosingTag? || p.AnyTag?
    requires NoLt(a) && NoLt(b) && |tag| > 0 && NoLt(tag[1..])
    requires MatchLen(p, tag + b) == 0 || MatchLen(p, tag + b) == |tag|
    ensures MatchLen(p, tag + b) == 0 ==> ReplaceAll(a + tag + b, p, rep) == a + tag + b
    ensures MatchLen(p, tag + b) > 0 ==> ReplaceAll(a + tag + b, p, rep) == a + [rep] + b
  {
    var s := tag + b;
    assert a + tag + b == a + s;
    KeptPrefix(a, s, p, rep);
    if MatchLen(p, s) == 0 {
      TagCopied(tag, b, p, rep);
    } else {
      TagReplaced(tag, b, p, rep);
      assert a + ([rep] + b) == a + [rep] + b;
    }
  }

  lemma TagCopied(tag: string, b: string, p: Pattern, rep: char)
    requires p.LineBreak? || p.ClosingTag? || p.AnyTag?
    requires NoLt(b) && |tag| > 0 && NoLt(tag[1..])
    requires MatchLen(p, tag + b) == 0
    ensures ReplaceAll(tag + b, p, rep) == tag + b
  {
    var s := tag + b;
    var u := tag[1..] + b;
    assert s[1..] == u;
    NoLtAppend(tag[1..], b);
    Untouched(u, p, rep);
    CopyFront(s, p, rep);
    assert [s[0]] + u == s;
  }

  lemma TagReplaced(tag: string, b: string, p: Pattern, rep: char)
    requires p.LineBreak? || p.ClosingTag? || p.AnyTag?
    requires NoLt(b) && |tag| > 0
    requires MatchLen(p, tag + b) == |tag|
    ensures ReplaceAll(tag + b, p, rep) == [rep] + b
  {
    var s := tag + b;
    Untouched(b, p, rep);
    Unfold(s, p, rep);
    assert s[|tag|..] == b;
    var r := ReplaceAll(s, p, rep);
    assert r == [r[0]] + r[1..];
  }

  lemma NoLtAppend(x: string, y: string)
    requires NoLt(x) && NoLt(y)
    ensures NoLt(x + y)
  {
    assert forall k :: 0 <= k < |x + y| ==> (x + y)[k] == if k < |x| then x[k] else y[k - |x|];
  }

  /** The line break left between the words ends up as the one space. */
  lemma NewlineBecomesSpace(a: string, b: string)
    requires PlainWord(a) && PlainWord(b)
    ensures Trim(CollapseSpaces(DecodeEntities(StripTags(a + "\n" + b)))) == a + " " + b
  {
    var nl := a + "\n" + b;
    NoLtJoined(a, b);
    Untouched(nl, AnyTag, ' ');
    Untouched(nl, Literal("&#8377;"), Rupee);
    Untouched(nl, Literal("&nbsp;"), ' ');
    SpaceStage(a, b);
    TrimOfTrimmed(a + " " + b);
  }

  lemma SpaceStage(a: string, b: string)
    requires PlainWord(a) && PlainWord(b)
    ensures ReplaceAll(a + "\n" + b, SpaceRun, ' ') == a + " " + b
  {
    var s := "\n" + b;
    assert a + "\n" + b == a + s;
    KeptPrefix(a, s, SpaceRun, ' ');
    BreakThenWord(b);
    assert a + (" " + b) == a + " " + b;
  }

  lemma BreakThenWord(b: string)
    requires PlainWord(b)
    ensures ReplaceAll("\n" + b, SpaceRun, ' ') == " " + b
  {
    var s := "\n" + b;
    assert SkipSpace(s, 1) == 1;
    Unfold(s, SpaceRun, ' ');
    assert s[1..] == b;
    Untouched(b, SpaceRun, ' ');
    var r := ReplaceAll(s, SpaceRun, ' ');
    assert r == [r[0]] + r[1..];
  }
}

=== FILE: mailbox.dfy ===
/** What the scripts see of one Gmail message, and the remote calls they
    make about it. Every remote call is reduced to its outcome: the
    `messages.get` answer (or its failure), whether the sink POST
    resolved, and whether the PROCESSED label was applied. */
module Mailbox {
  import opened Base
  import opened MimeParts
  import opened HtmlText
  import opened FieldExtract

  /** A fetched message (`format: "full"`). `dateHeader` is the value of
      the `Date` header; `headerDateMs` is `new Date(dateHeader).getTime()`
      and `bodyTimeMs` is the instant the date-time text of the body
      parses to with `GMT+0530` appended, each None when NaN or absent. */
  datatype Mail = Mail(
    internalDateMs: int,
    payload: Part,
    dateHeader: Option<string>,
    headerDateMs: Option<int>,
    bodyTimeMs: Option<int>)

  /** A listed message with the outcomes of the calls made about it:
      `fetched` is None when `messages.get` throws, `postOk` says whether
      the sink POST resolves, `markOk` whether the label call resolves. */
  datatype Message = Message(id: string, fetched: Option<Mail>, postOk: bool, markOk: bool)

  predicate Readable(m: Message) {
    m.fetched.Some? && m.fetched.value.payload.body.Some?
  }

  /** How a handler finds a message before any POST or label call.
      `Unreadable`: the get failed, or the payload has no `body` object so
      that `payload.body.data` throws. Otherwise `seconds` is the internal
      date in seconds, and the located body either is missing, or yields
      fields whose amount is null, or yields `fields` with an amount. */
  datatype Outcome =
    | Unreadable
    | NoBody(seconds: int)
    | NoAmount(seconds: int)
    | WithAmount(seconds: int, mail: Mail, fields: Fields)

  /** A listed message reduced to what the loops act on. */
  datatype Turn = Turn(id: string, outcome: Outcome, postOk: bool, markOk: bool)

  /** `extractData(cleanHtmlText(encodedBody))` on the located body. */
  function Classify(m: Message): (t: Turn)
    ensures t.id == m.id && t.postOk == m.postOk && t.markOk == m.markOk
    ensures t.outcome.Unreadable? <==> !Readable(m)
    ensures !t.outcome.Unreadable? ==> t.outcome.seconds == Seconds(m.fetched.value.internalDateMs)
    ensures t.outcome.NoBody? <==> Readable(m) && LocateBody(m.fetched.value.payload).None?
    ensures t.outcome.NoAmount? || t.outcome.WithAmount? ==>
              && LocateBody(m.fetched.value.payload).Some?
              && var fields := ExtractData(CleanHtmlText(LocateBody(m.fetched.value.payload).value.decoded));
                 (t.outcome.NoAmount? <==> fields.amount.None?)
                 && (t.outcome.WithAmount? ==> t.outcome.mail == m.fetched.value && t.outcome.fields == fields)
    ensures t.outcome.WithAmount? ==> IsAmountText(t.outcome.fields.amount.value)
  {
    var outcome :=
      if !Readable(m) then Unreadable
      else
        var mail := m.fetched.value;
        var seconds := Seconds(mail.internalDateMs);
        match LocateBody(mail.payload)
        case None => NoBody(seconds)
        case Some(body) =>
          var fields := ExtractData(CleanHtmlText(body.decoded));
          if fields.amount.None? then NoAmount(seconds) else WithAmount(seconds, mail, fields);
    Turn(m.id, outcome, m.postOk, m.markOk)
  }

  /** The located body of a readable message yields an amount. */
  predicate HasAmount(m: Message) {
    && Readable(m)
    && LocateBody(m.fetched.value.payload).Some?
    && ExtractData(CleanHtmlText(LocateBody(m.fetched.value.payload).value.decoded)).amount.Some?
  }

  /** The classified turns of the listed messages, in order. */
  function Turns(ms: seq<Message>): (ts: seq<Turn>)
    ensures |ts| == |ms| && forall k :: 0 <= k < |ms| ==> ts[k] == Classify(ms[k])
  {
    seq(|ms|, k requires 0 <= k < |ms| => Classify(ms[k]))
  }

  /** What is sent to the sink. `Synced` is the object of
      others/test_new.js (no transaction count, two timestamps);
      `Stamped` that of test_new.js (the raw Date header, sent as
      `timestamp`, and its seconds); `Plain` the bare extractor result of
      test.js, test_working.js and index.js. */
  datatype Payload =
    | Synced(
        amount: Option<string>,
        orderId: Option<string>,
        accountOf: Option<string>,
        fromUpi: Option<string>,
        timestamp: int,
        txnTime: int)
    | Stamped(fields: Fields, dateHeader: Option<string>, unixTimestamp: Option<int>)
    | Plain(fields: Fields)

  /** The remote calls about one message, in the order they are made:
      `messages.get`, the sink POST, and `messages.modify` adding the
      PROCESSED label. A call appears once made, whether or not it threw. */
  datatype Call = Get(id: string) | Post(id: string, payload: Payload) | Mark(id: string)

  /** The ids of the messages fetched, in call order. */
  function Fetched(calls: seq<Call>): (ids: seq<string>)
    ensures |ids| <= |calls|
  {
    if |calls| == 0 then []
    else (if calls[0].Get? then [calls[0].id] else []) + Fetched(calls[1..])
  }

  lemma {:induction false} FetchedAppend(a: seq<Call>, b: seq<Call>)
    ensures Fetched(a + b) == Fetched(a) + Fetched(b)
    decreases |a|
  {
    if |a| > 0 {
      assert (a + b)[1..] == a[1..] + b;
      FetchedAppend(a[1..], b);
    } else {
      assert a + b == b;
    }
  }

  predicate Posts(calls: seq<Call>) {
    exists k :: 0 <= k < |calls| && calls[k].Post?
  }

  predicate Marks(calls: seq<Call>) {
    exists k :: 0 <= k < |calls| && calls[k].Mark?
  }
}

=== FILE: mime_parts.dfy ===
/** `findHtmlBody` and the body lookup around it: a Gmail message payload
    is a tree of MIME parts, and the scripts want the base64 data of the
    HTML part (test.js:52-64, 127-130; the same code in test_working.js,
    test_new.js and others/test_new.js). */
module MimeParts {
  import opened Base

  /** A part body as Gmail delivers it: the base64url `data` string, with
      the text `Buffer.from(data, "base64").toString("utf-8")` yields. */
  datatype Body = Body(raw: string, decoded: string)

  /** A MIME part. A part without `body` has `body == None`; a part without
      `parts` has `parts == []`, which every script treats alike. */
  datatype Part = Part(mimeType: string, body: Option<Body>, parts: seq<Part>)

  /** `part.body && part.body.data`: present and not the empty string. */
  predicate HasData(p: Part) {
    p.body.Some? && p.body.value.raw != ""
  }

  predicate IsHtmlWithData(p: Part) {
    p.mimeType == "text/html" && HasData(p)
  }

  /** Depth-first search over a list of parts: a part is tested before its
      children, and its children before its later siblings. */
  function FindHtmlBody(parts: seq<Part>): (r: Option<Body>)
    ensures r.Some? ==> r.value.raw != ""
    ensures |parts| > 0 && IsHtmlWithData(parts[0]) ==> r == parts[0].body
    ensures r.None? ==> forall k :: 0 <= k < |parts| ==> !IsHtmlWithData(parts[k])
    decreases parts
  {
    if |parts| == 0 then None
    else
      var part := parts[0];
      if IsHtmlWithData(part) then part.body
      else
        var found := FindHtmlBody(part.parts);
        if found.Some? then found else FindHtmlBody(parts[1..])
  }

  /** Every part of a forest in depth-first pre-order. */
  function PreOrder(parts: seq<Part>): (flat: seq<Part>)
    ensures |parts| > 0 ==> |flat| > 0 && flat[0] == parts[0]
    decreases parts
  {
    if |parts| == 0 then []
    else [parts[0]] + PreOrder(parts[0].parts) + PreOrder(parts[1..])
  }

  /** `k` is the first position of `flat` holding an HTML part with data. */
  predicate IsFirstHtmlAt(flat: seq<Part>, k: int) {
    && 0 <= k < |flat|
    && IsHtmlWithData(flat[k])
    && forall j :: 0 <= j < k ==> !IsHtmlWithData(flat[j])
  }

  /** The reference search: the body of the first HTML part with data in a flat list. */
  function FirstHtml(flat: seq<Part>): (r: Option<Body>)
    ensures r.None? <==> forall k :: 0 <= k < |flat| ==> !IsHtmlWithData(flat[k])
    ensures r.Some? ==> exists k :: IsFirstHtmlAt(flat, k) && r == flat[k].body
    decreases |flat|
  {
    if |flat| == 0 then None
    else if IsHtmlWithData(flat[0]) then
      assert IsFirstHtmlAt(flat, 0);
      flat[0].body
    else
      var r := FirstHtml(flat[1..]);
      FirstHtmlShift(flat, r);
      r
  }

  /** A first match in the tail is a first match of the whole list when
      the head does not match. */
  lemma FirstHtmlShift(flat: seq<Part>, r: Option<Body>)
    requires |flat| > 0 && !IsHtmlWithData(flat[0])
    requires r.Some? ==> exists k :: IsFirstHtmlAt(flat[1..], k) && r == flat[1..][k].body
    ensures r.Some? ==> exists k :: IsFirstHtmlAt(flat, k) && r == flat[k].body
  {
    if r.Some? {
      var k :| IsFirstHtmlAt(flat[1..], k) && r == flat[1..][k].body;
      assert IsFirstHtmlAt(flat, k + 1);
    }
  }

  lemma {:induction false} FirstHtmlAppend(a: seq<Part>, b: seq<Part>)
    ensures FirstHtml(a + b) == if FirstHtml(a).Some? then FirstHtml(a) else FirstHtml(b)
    decreases |a|
  {
    if |a| > 0 {
      assert (a + b)[1..] == a[1..] + b;
      FirstHtmlAppend(a[1..], b);
    } else {
      assert a + b == b;
    }
  }

  lemma FirstHtmlCons(head: Part, rest: seq<Part>)
    ensures FirstHtml([head] + rest) == if IsHtmlWithData(head) then head.body else FirstHtml(rest)
  {
    assert ([head] + rest)[0] == head;
    assert ([head] + rest)[1..] == rest;
  }

  /** The pre-order of a non-empty forest, in the form the search walks it:
      the first part, its subtree, then the later siblings' subtrees. */
  lemma PreOrderCons(parts: seq<Part>)
    requires |parts| > 0
    ensures PreOrder(parts) == [parts[0]] + (PreOrder(parts[0].parts) + PreOrder(parts[1..]))
  {
  }

  /** `findHtmlBody` returns the body of the first HTML part with data in
      depth-first pre-order, and null exactly when there is none. */
  lemma {:induction false} FindHtmlBodyIsFirstInPreOrder(parts: seq<Part>)
    ensures FindHtmlBody(parts) == FirstHtml(PreOrder(parts))
    decreases parts
  {
    if |parts| > 0 {
      var head := parts[0];
      FindHtmlBodyIsFirstInPreOrder(head.parts);
      FindHtmlBodyIsFirstInPreOrder(parts[1..]);
      PreOrderCons(parts);
      FirstHtmlCons(head, PreOrder(head.parts) + PreOrder(parts[1..]));
      FirstHtmlAppend(PreOrder(head.parts), PreOrder(parts[1..]));
    }
  }

  /** The body a handler scans: the top-level body when it has data,
      whatever its MIME type; otherwise what `findHtmlBody` finds among
      the payload's parts, the first HTML part with data in pre-order. */
  function LocateBody(payload: Part): (r: Option<Body>)
    ensures r.Some? ==> r.value.raw != ""
    ensures HasData(payload) ==> r == payload.body
    ensures !HasData(payload) ==> r == FirstHtml(PreOrder(payload.parts))
    ensures r.None? <==> !HasData(payload) && forall k :: 0 <= k < |PreOrder(payload.parts)| ==> !IsHtmlWithData(PreOrder(payload.parts)[k])
  {
    FindHtmlBodyIsFirstInPreOrder(payload.parts);
    if HasData(payload) then payload.body
    else
      FindHtmlBody(payload.parts)
  }
}

=== FILE: polling.dfy ===
/** `startPolling`: the endless loop around `processEmails`. The loop of
    others/test_new.js:274-310 keeps the local watermark (`localCursorTime`)
    and the value last written back to the sink (`lastSavedTime`); the
    loop of test_new.js:199-226 keeps only the watermark. The thirty
    second sleep between iterations is not modelled. */
module Polling {
  import opened Base
  import opened Mailbox
  import opened SyncBatch
  import opened Checkpoint

  /** The remote outcomes of one iteration: `listed` is None when the
      label lookup or the list call throws (the throw escapes
      `processEmails` to the loop's `catch`); `updateOk` says whether the
      watermark update POST resolves, should one be sent. */
  datatype Cycle = Cycle(listed: Option<seq<Turn>>, updateOk: bool)

  datatype PollState = PollState(cursor: int, lastSaved: int)

  /** The state before the first iteration: `lastSavedTime` starts equal
      to the start-up cursor. */
  function Start(f: Fetch, nowMs: int): (s: PollState)
    ensures s.cursor == s.lastSaved
    ensures s.cursor == InitialCursor(f, nowMs)
  {
    var c := InitialCursor(f, nowMs);
    PollState(c, c)
  }

  /** `newTime` of one iteration, kept only if it moved forward. */
  function NextCursor(g: Generation, cursor: int, listed: Option<seq<Turn>>): (r: int)
    ensures r >= cursor
    ensures listed.None? ==> r == cursor
    ensures listed.Some? ==> r == ProcessEmails(g, cursor, listed.value).cursor
  {
    if listed.None? then cursor
    else
      var newTime := ProcessEmails(g, cursor, listed.value).cursor;
      if newTime > cursor then newTime else cursor
  }

  /** One iteration of others/test_new.js, and the value written back to
      the sink, if any. */
  datatype Step = Step(state: PollState, update: Option<int>)

  /** The update is sent exactly when the watermark is past the last
      saved value, and `lastSavedTime` takes the watermark whether or not
      the update resolved: `updateServerTimestamp` swallows its error. */
  function Advance(s: PollState, c: Cycle): (r: Step)
    ensures r.state.cursor == NextCursor(WritesBack, s.cursor, c.listed)
    ensures r.state.cursor >= s.cursor
    ensures r.update.Some? <==> r.state.cursor > s.lastSaved
    ensures r.update.Some? ==> r.update.value == r.state.cursor && r.state.lastSaved == r.state.cursor
    ensures r.update.None? ==> r.state.lastSaved == s.lastSaved
    ensures c.listed.None? ==> r.state.cursor == s.cursor
  {
    var cursor := NextCursor(WritesBack, s.cursor, c.listed);
    if cursor > s.lastSaved then Step(PollState(cursor, cursor), Some(cursor))
    else Step(PollState(cursor, s.lastSaved), None)
  }

  /** Whether the update POST resolved makes no difference to what the
      loop does next: a failed write-back is never retried for its own
      sake. */
  lemma UpdateOutcomeIgnored(s: PollState, listed: Option<seq<Turn>>)
    ensures Advance(s, Cycle(listed, true)) == Advance(s, Cycle(listed, false))
  {
  }

  /** From the start state on, the last saved value always equals the
      watermark, so an update goes out exactly when an iteration moved
      the watermark. */
  lemma SavedTracksCursor(s: PollState, c: Cycle)
    requires s.lastSaved == s.cursor
    ensures Advance(s, c).state.lastSaved == Advance(s, c).state.cursor
    ensures Advance(s, c).update.Some? <==> Advance(s, c).state.cursor > s.cursor
  {
  }

  /** A run of iterations: the final state and the values written back,
      in order. */
  datatype Run = Run(state: PollState, updates: seq<int>)

  predicate Increasing(xs: seq<int>) {
    forall i, j :: 0 <= i < j < |xs| ==> xs[i] < xs[j]
  }

  /** A value above every earlier one keeps a sequence increasing. */
  lemma IncreasingAppend(xs: seq<int>, v: int)
    requires Increasing(xs)
    requires forall k :: 0 <= k < |xs| ==> xs[k] < v
    ensures Increasing(xs + [v])
  {
  }

  /** One iteration, seen by the loop through its contract alone. */
  method Iterate(s: PollState, c: Cycle) returns (step: Step)
    ensures step.state.cursor == NextCursor(WritesBack, s.cursor, c.listed)
    ensures step.state.cursor >= s.cursor
    ensures step.update.Some? <==> step.state.cursor > s.lastSaved
    ensures step.update.Some? ==> step.update.value == step.state.cursor && step.state.lastSaved == step.state.cursor
    ensures step.update.None? ==> step.state.lastSaved == s.lastSaved
    ensures c.listed.None? ==> step.state.cursor == s.cursor
  {
    step := Advance(s, c);
  }

  /** The watermark after the given iterations, each pass starting from
      the watermark the previous one left. */
  function Cursors(g: Generation, cursor: int, cycles: seq<Cycle>): (r: int)
    ensures r >= cursor
    decreases |cycles|
  {
    if |cycles| == 0 then cursor
    else NextCursor(g, Cursors(g, cursor, cycles[..|cycles| - 1]), cycles[|cycles| - 1].listed)
  }

  /** One more iteration extends the fold by one pass. */
  lemma CursorsStep(g: Generation, cursor: int, cycles: seq<Cycle>, i: int)
    requires 0 <= i < |cycles|
    ensures Cursors(g, cursor, cycles[..i + 1]) == NextCursor(g, Cursors(g, cursor, cycles[..i]), cycles[i].listed)
  {
    assert cycles[..i + 1][..i] == cycles[..i];
  }

  /** What the loop knows after some iterations from the start-up
      cursor `first`: the last saved value keeps up with the watermark,
      and the values written back increase, lie above `first` up to the
      watermark, exist exactly when the watermark moved, and end with it. */
  predicate Written(first: int, s: PollState, updates: seq<int>) {
    && s.lastSaved == s.cursor && s.cursor >= first
    && Increasing(updates)
    && (forall k :: 0 <= k < |updates| ==> first < updates[k] <= s.cursor)
    && (|updates| > 0 <==> s.cursor > first)
    && (|updates| > 0 ==> updates[|updates| - 1] == s.cursor)
  }

  /** A step that sends the watermark exactly when it passes the last
      saved value, and then saves it, keeps what the loop knows. */
  lemma WrittenStep(first: int, s: PollState, updates: seq<int>, step: Step)
    requires Written(first, s, updates)
    requires step.state.cursor >= s.cursor
    requires step.update.Some? <==> step.state.cursor > s.lastSaved
    requires step.update.Some? ==> step.update.value == step.state.cursor && step.state.lastSaved == step.state.cursor
    requires step.update.None? ==> step.state.lastSaved == s.lastSaved
    ensures Written(first, step.state, if step.update.Some? then updates + [step.update.value] else updates)
  {
    if step.update.Some? {
      IncreasingAppend(updates, step.update.value);
    }
  }

  /** One iteration of the loop with its write-back recorded. */
  method Record(first: int, s: PollState, updates: seq<int>, c: Cycle) returns (next: PollState, written: seq<int>)
    requires Written(first, s, updates)
    ensures next.cursor == NextCursor(WritesBack, s.cursor, c.listed)
    ensures Written(first, next, written)
    ensures written == updates || written == updates + [next.cursor]
  {
    var step := Iterate(s, c);
    WrittenStep(first, s, updates, step);
    written := if step.update.Some? then updates + [step.update.value] else updates;
    next := step.state;
  }

  /** `startPolling` of others/test_new.js over a finite prefix of its
      endless loop. The watermark after each iteration is what that
      iteration's `processEmails` returned, when later; the last saved
      value keeps up with it; values are written back exactly when the
      watermark moved, each larger than every earlier one, so a value
      whose write-back failed is never sent again; the last one written
      is the final watermark. */
  method Poll(f: Fetch, nowMs: int, cycles: seq<Cycle>) returns (r: Run)
    ensures r.state.cursor == Cursors(WritesBack, InitialCursor(f, nowMs), cycles)
    ensures r.state.cursor >= InitialCursor(f, nowMs)
    ensures r.state.lastSaved == r.state.cursor
    ensures Increasing(r.updates)
    ensures forall i :: 0 <= i < |r.updates| ==> InitialCursor(f, nowMs) < r.updates[i] <= r.state.cursor
    ensures |r.updates| > 0 <==> r.state.cursor > InitialCursor(f, nowMs)
    ensures |r.updates| > 0 ==> r.updates[|r.updates| - 1] == r.state.cursor
  {
    var s := Start(f, nowMs);
    var first := s.cursor;
    var updates: seq<int> := [];
    var i := 0;
    while i < |cycles|
      invariant 0 <= i <= |cycles|
      invariant s.cursor == Cursors(WritesBack, first, cycles[..i])
      invariant Written(first, s, updates)
    {
      CursorsStep(WritesBack, first, cycles, i);
      s, updates := Record(first, s, updates, cycles[i]);
      i := i + 1;
    }
    assert cycles[..|cycles|] == cycles;
    r := Run(s, updates);
  }

  /** One iteration of test_new.js: the watermark moves forward or stays;
      nothing is written back. */
  method IterateReadOnly(cursor: int, c: Cycle) returns (next: int)
    ensures next >= cursor
    ensures c.listed.None? ==> next == cursor
    ensures c.listed.Some? ==> next == ProcessEmails(ReadsOnly, cursor, c.listed.value).cursor
  {
    next := NextCursor(ReadsOnly, cursor, c.listed);
  }

  /** `startPolling` of test_new.js over a finite prefix of its loop: the
      watermark never decreases and is never written back. */
  method PollReadOnly(f: Fetch, nowMs: int, cycles: seq<Cycle>) returns (cursor: int)
    ensures cursor == Cursors(ReadsOnly, InitialCursorByDate(f, nowMs), cycles)
    ensures cursor >= InitialCursorByDate(f, nowMs)
  {
    cursor := InitialCursorByDate(f, nowMs);
    var i := 0;
    while i < |cycles|
      invariant 0 <= i <= |cycles|
      invariant cursor == Cursors(ReadsOnly, InitialCursorByDate(f, nowMs), cycles[..i])
      invariant cursor >= InitialCursorByDate(f, nowMs)
    {
      CursorsStep(ReadsOnly, InitialCursorByDate(f, nowMs), cycles, i);
      cursor := IterateReadOnly(cursor, cycles[i]);
      i := i + 1;
    }
    assert cycles[..|cycles|] == cycles;
  }
}

=== FILE: rewrite.dfy ===
/** Global replacement, `text.replace(/pattern/g, rep)`, for the five
    pattern shapes the HTML cleaner uses. A global replace scans left to
    right: where the pattern matches, the match is replaced and the scan
    resumes after it; elsewhere one character is copied. None of the
    patterns has an anchor or a look-behind, so a match at a position
    depends only on the text from that position on, and none of them
    matches the empty string, so every replacement consumes input. */
module Rewrite {
  import opened Text

  datatype Pattern =
    | LineBreak                // /<br\s*\/?>/gi
    | ClosingTag(name: string) // /<\/name>/gi, name written in lower case
    | AnyTag                   // /<[^>]+>/g
    | Literal(w: string)       // a fixed text, case-sensitive
    | SpaceRun                 // /\s+/g

  /** Prefix test under the `i` flag; `w` is written in lower case. */
  predicate StartsWithFolded(s: string, w: string) {
    |w| <= |s| && forall k :: 0 <= k < |w| ==> Lower(s[k]) == w[k]
  }

  /** Text that `<[^>]+>` matches at its start: a `<`, at least one
      character that is not `>`, then a `>`. */
  predicate TagAt(s: string) {
    |s| >= 3 && s[0] == '<' && s[1] != '>' && '>' in s[2..]
  }

  /** Some position of `t` starts a `<[^>]+>` match. */
  predicate HasTag(t: string)
    decreases |t|
  {
    TagAt(t) || (|t| > 0 && HasTag(t[1..]))
  }

  /** Index of the first `>` at or after `from`, or `|s|` when there is none. */
  function FindGt(s: string, from: nat): (f: nat)
    requires from <= |s|
    ensures from <= f <= |s|
    ensures f < |s| ==> s[f] == '>'
    ensures forall k :: from <= k < f ==> s[k] != '>'
    decreases |s| - from
  {
    if from == |s| || s[from] == '>' then from else FindGt(s, from + 1)
  }

  /** The whole of `w` is a `<br\s*\/?>` match: `<br` in any case, a run
      of `\s`, at most one `/` right before the closing `>`. */
  predicate IsBrTag(w: string) {
    |w| >= 4 && StartsWithFolded(w, "<br") && w[|w| - 1] == '>' &&
    forall k :: 3 <= k < |w| - 1 ==> IsSpace(w[k]) || (k == |w| - 2 && w[k] == '/')
  }

  /** `<br\s*\/?>`: backtracking cannot change the outcome, since `\s`,
      `/` and `>` are pairwise disjoint, so greedy choices decide it. */
  function LineBreakLen(s: string): (n: nat)
    ensures n <= |s|
    ensures n > 0 ==> TagAt(s) && StartsWithFolded(s, "<br") && s[n - 1] == '>'
  {
    if |s| >= 3 && s[0] == '<' && Lower(s[1]) == 'b' && Lower(s[2]) == 'r' then
      var j := SkipSpace(s, 3);
      var k := if j < |s| && s[j] == '/' then j + 1 else j;
      if k < |s| && s[k] == '>' then
        assert s[2..][k - 2] == '>';
        k + 1
      else 0
    else 0
  }

  /** What the pattern matches is a `<br>` tag. */
  lemma LineBreakIsBrTag(s: string)
    ensures LineBreakLen(s) > 0 ==> IsBrTag(s[..LineBreakLen(s)])
  {
    var n := LineBreakLen(s);
    if n > 0 {
      var j := SkipSpace(s, 3);
      assert forall i :: 0 <= i < n ==> s[..n][i] == s[i];
    }
  }

  /** Every prefix that is a `<br>` tag is the one the pattern matches:
      the match exists and has exactly that length. */
  lemma {:induction false} LineBreakMatchesBrTag(s: string, m: nat)
    requires m <= |s| && IsBrTag(s[..m])
    ensures LineBreakLen(s) == m
  {
    var w := s[..m];
    assert forall i :: 0 <= i < m ==> w[i] == s[i];
    assert Lower(s[0]) == '<' && Lower(s[1]) == 'b' && Lower(s[2]) == 'r';
    assert s[0] == '<';
    var j := SkipSpace(s, 3);
    if m - 2 >= 3 && s[m - 2] == '/' {
      assert forall i :: 3 <= i < m - 2 ==> IsSpace(s[i]);
      assert !IsSpace(s[m - 2]);
      assert j == m - 2;
    } else {
      assert forall i :: 3 <= i < m - 1 ==> IsSpace(s[i]);
      assert !IsSpace(s[m - 1]);
      assert j == m - 1;
    }
  }

  /** Length of the match of `p` at the start of `s`; 0 when there is none. */
  function MatchLen(p: Pattern, s: string): (n: nat)
    ensures n <= |s|
    ensures p.Literal? ==> (n > 0 <==> |p.w| > 0 && StartsWith(s, p.w)) && (n > 0 ==> n == |p.w|)
    ensures p.ClosingTag? ==> var w := "</" + p.name + ">";
                              (n > 0 <==> StartsWithFolded(s, w)) && (n > 0 ==> n == |w|)
    ensures p.AnyTag? ==> (n > 0 <==> TagAt(s))
    ensures p.AnyTag? && n > 0 ==> s[n - 1] == '>' && forall k :: 1 <= k < n - 1 ==> s[k] != '>'
    ensures p.SpaceRun? ==> (forall k :: 0 <= k < n ==> IsSpace(s[k])) && (n < |s| ==> !IsSpace(s[n]))
    ensures (p.LineBreak? || p.ClosingTag? || p.AnyTag?) && n > 0 ==> TagAt(s)
  {
    match p
    case LineBreak => LineBreakLen(s)
    case ClosingTag(name) =>
      var w := "</" + name + ">";
      if StartsWithFolded(s, w) then
        assert Lower(s[1]) == '/' && Lower(s[|w| - 1]) == '>';
        assert s[2..][|w| - 3] == '>';
        |w|
      else 0
    case AnyTag =>
      if |s| >= 3 && s[0] == '<' && s[1] != '>' then
        var f := FindGt(s, 2);
        if f < |s| then f + 1
        else
          assert forall k :: 0 <= k < |s[2..]| ==> s[2..][k] == s[k + 2];
          0
      else 0
    case Literal(w) => if |w| > 0 && StartsWith(s, w) then |w| else 0
    case SpaceRun => SkipSpace(s, 0)
  }

  /** Every match opens with `<`, a `\s` character, or the literal's own
      first character; a literal that opens with `>` is the one exception. */
  predicate OpensWithoutGt(p: Pattern) {
    !(p.Literal? && |p.w| > 0 && p.w[0] == '>')
  }

  lemma MatchNeverOpensWithGt(p: Pattern, s: string)
    requires OpensWithoutGt(p)
    requires |s| > 0 && s[0] == '>'
    ensures MatchLen(p, s) == 0
  {
    if p.LineBreak? || p.ClosingTag? || p.AnyTag? {
      assert !TagAt(s);
    } else if p.SpaceRun? {
      assert !IsSpace(s[0]);
    }
  }

  /** `s.replace(/p/g, rep)` for a single-character replacement. */
  function ReplaceAll(s: string, p: Pattern, rep: char): (r: string)
    ensures |r| <= |s|
    ensures |r| == 0 <==> |s| == 0
    ensures forall c :: c in r && c != rep ==> c in s
    decreases |s|
  {
    if |s| == 0 then []
    else
      var n := MatchLen(p, s);
      if n > 0 then
        var rest := ReplaceAll(s[n..], p, rep);
        assert forall c :: c in s[n..] ==> c in s;
        [rep] + rest
      else
        var rest := ReplaceAll(s[1..], p, rep);
        assert forall c :: c in s[1..] ==> c in s;
        [s[0]] + rest
  }

  /** How far the scan moves past the first position of `s`. */
  function Step(s: string, p: Pattern): (m: nat)
    requires |s| > 0
    ensures 1 <= m <= |s|
  {
    var n := MatchLen(p, s);
    if n > 0 then n else 1
  }

  lemma Unfold(s: string, p: Pattern, rep: char)
    requires |s| > 0
    ensures ReplaceAll(s, p, rep)[0] == (if MatchLen(p, s) > 0 then rep else s[0])
    ensures ReplaceAll(s, p, rep)[1..] == ReplaceAll(s[Step(s, p)..], p, rep)
  {
  }

  lemma StartsWithCons(t: string, w: string)
    requires |t| > 0 && |w| > 0
    ensures StartsWith(t, w) <==> t[0] == w[0] && StartsWith(t[1..], w[1..])
  {
    if t[0] == w[0] && StartsWith(t[1..], w[1..]) {
      assert t[..|w|] == [t[0]] + t[1..][..|w| - 1];
    }
    if StartsWith(t, w) {
      assert t[1..][..|w| - 1] == t[..|w|][1..];
    }
  }

  /** A prefix of the output free of the replacement character was copied
      verbatim from the input. */
  lemma {:induction false} PrefixTransfer(s: string, p: Pattern, rep: char, w: string)
    requires rep !in w
    ensures StartsWith(ReplaceAll(s, p, rep), w) ==> StartsWith(s, w)
    decreases |w|
  {
    var r := ReplaceAll(s, p, rep);
    if |w| > 0 && |s| > 0 && MatchLen(p, s) == 0 {
      CopyFront(s, p, rep);
      PrefixTransfer(s[1..], p, rep, w[1..]);
      StartsWithCons(r, w);
      StartsWithCons(s, w);
    } else if |w| > 0 && |s| > 0 {
      Unfold(s, p, rep);
      assert w[0] != rep;
    }
  }

  /** Replacing with a character the word lacks cannot create the word. */
  lemma {:induction false} OccurrenceTransfer(s: string, p: Pattern, rep: char, w: string)
    requires |w| > 0 && rep !in w
    ensures Contains(ReplaceAll(s, p, rep), w) ==> Contains(s, w)
    decreases |s|
  {
    if |s| > 0 {
      var m := Step(s, p);
      Unfold(s, p, rep);
      PrefixTransfer(s, p, rep, w);
      OccurrenceTransfer(s[m..], p, rep, w);
      if Contains(s[m..], w) {
        ContainsSuffix(s, m, w);
      }
    }
  }

  /** Replacing a word by a character it lacks leaves no occurrence of it. */
  lemma {:induction false} LiteralRemoved(s: string, w: string, rep: char)
    requires |w| > 0 && rep !in w
    ensures !Contains(ReplaceAll(s, Literal(w), rep), w)
    decreases |s|
  {
    var r := ReplaceAll(s, Literal(w), rep);
    if |s| > 0 {
      var m := Step(s, Literal(w));
      Unfold(s, Literal(w), rep);
      PrefixTransfer(s, Literal(w), rep, w);
      assert !StartsWith(r, w) by {
        if MatchLen(Literal(w), s) > 0 {
          assert r[0] == rep != w[0];
        }
      }
      LiteralRemoved(s[m..], w, rep);
    }
  }

  lemma {:induction false} HasTagSuffix(t: string, k: nat)
    requires k <= |t|
    ensures HasTag(t[k..]) ==> HasTag(t)
    decreases k
  {
    if k > 0 {
      assert t[k..] == t[1..][k - 1..];
      HasTagSuffix(t[1..], k - 1);
    }
  }

  lemma {:induction false} HasTagPrefix(t: string, k: nat)
    requires k <= |t|
    ensures HasTag(t[..k]) ==> HasTag(t)
    decreases k
  {
    if k > 0 {
      if TagAt(t[..k]) {
        assert t[..k][2..] == t[2..k];
        assert forall c :: c in t[2..k] ==> c in t[2..];
      }
      assert t[..k][1..] == t[1..][..k - 1];
      HasTagPrefix(t[1..], k - 1);
    }
  }

  /** A `>` the output holds after its first character stood in the input
      after its first character. */
  lemma GtAfterFirst(s: string, p: Pattern, rep: char)
    requires |s| > 0 && rep != '>'
    ensures '>' in ReplaceAll(s, p, rep)[1..] ==> exists k :: 1 <= k < |s| && s[k] == '>'
  {
    if '>' in ReplaceAll(s, p, rep)[1..] {
      Unfold(s, p, rep);
      var m := Step(s, p);
      GtInSuffix(s, m);
    }
  }

  lemma GtInSuffix(s: string, m: nat)
    requires 1 <= m <= |s| && '>' in s[m..]
    ensures exists k :: 1 <= k < |s| && s[k] == '>'
  {
    var t := s[m..];
    var i :| 0 <= i < |t| && t[i] == '>';
    assert s[m + i] == '>';
  }

  /** What `[^>]+>` needs after the `<`, carried from output to input. */
  lemma TagTail(s: string, p: Pattern, rep: char)
    requires rep != '>' && OpensWithoutGt(p)
    requires |s| > 0
    requires ReplaceAll(s, p, rep)[0] != '>' && '>' in ReplaceAll(s, p, rep)[1..]
    ensures s[0] != '>' && exists k :: 1 <= k < |s| && s[k] == '>'
  {
    Unfold(s, p, rep);
    if s[0] == '>' {
      MatchNeverOpensWithGt(p, s);
    }
    GtAfterFirst(s, p, rep);
  }

  /** A tag match at the front of the output was already one in the input,
      for every replacement that is neither `<` nor `>`. */
  lemma FrontTag(s: string, p: Pattern, rep: char)
    requires rep != '<' && rep != '>'
    requires OpensWithoutGt(p)
    ensures TagAt(ReplaceAll(s, p, rep)) ==> TagAt(s)
  {
    var r := ReplaceAll(s, p, rep);
    if |s| > 0 && MatchLen(p, s) == 0 && TagAt(r) {
      Unfold(s, p, rep);
      var s1 := s[1..];
      var r1 := ReplaceAll(s1, p, rep);
      assert r1 == r[1..];
      var j :| 0 <= j < |r[2..]| && r[2..][j] == '>';
      assert r1[1..][j] == '>';
      TagTail(s1, p, rep);
      var k :| 1 <= k < |s1| && s1[k] == '>';
      assert s[2..][k - 1] == '>';
    }
  }

  /** Replacements that are neither `<` nor `>` create no tag match. */
  lemma {:induction false} TagTransfer(s: string, p: Pattern, rep: char)
    requires rep != '<' && rep != '>'
    requires OpensWithoutGt(p)
    ensures HasTag(ReplaceAll(s, p, rep)) ==> HasTag(s)
    decreases |s|
  {
    if |s| > 0 {
      var m := Step(s, p);
      Unfold(s, p, rep);
      FrontTag(s, p, rep);
      TagTransfer(s[m..], p, rep);
      HasTagSuffix(s, m);
    }
  }

  /** After `.replace(/<[^>]+>/g, " ")` nothing matches `<[^>]+>`. */
  lemma {:induction false} TagsRemoved(s: string)
    ensures !HasTag(ReplaceAll(s, AnyTag, ' '))
    decreases |s|
  {
    var r := ReplaceAll(s, AnyTag, ' ');
    if |s| > 0 {
      var m := Step(s, AnyTag);
      Unfold(s, AnyTag, ' ');
      FrontTag(s, AnyTag, ' ');
      TagsRemoved(s[m..]);
      assert !TagAt(r);
    }
  }

  /** No two neighbouring characters are both `\s`. */
  predicate SingleSpaced(t: string) {
    forall k :: 0 <= k < |t| - 1 ==> !(IsSpace(t[k]) && IsSpace(t[k + 1]))
  }

  /** Every `\s` character is the plain space U+0020. */
  predicate PlainSpaces(t: string) {
    forall k :: 0 <= k < |t| ==> IsSpace(t[k]) ==> t[k] == ' '
  }

  /** After `.replace(/\s+/g, " ")` whitespace occurs only as single plain spaces. */
  lemma {:induction false} SpacesCollapsed(s: string)
    ensures SingleSpaced(ReplaceAll(s, SpaceRun, ' '))
    ensures PlainSpaces(ReplaceAll(s, SpaceRun, ' '))
    ensures |s| > 0 ==> (IsSpace(ReplaceAll(s, SpaceRun, ' ')[0]) <==> IsSpace(s[0]))
    decreases |s|
  {
    var r := ReplaceAll(s, SpaceRun, ' ');
    if |s| > 0 {
      var m := Step(s, SpaceRun);
      Unfold(s, SpaceRun, ' ');
      SpacesCollapsed(s[m..]);
      var rest := ReplaceAll(s[m..], SpaceRun, ' ');
      assert r == [r[0]] + rest;
      if |rest| > 0 {
        assert IsSpace(r[0]) ==> !IsSpace(s[m]);
      }
    }
  }

  /** A text with no match anywhere is left as it is. */
  lemma {:induction false} LiteralAbsentUnchanged(s: string, w: string, rep: char)
    requires !Contains(s, w)
    ensures ReplaceAll(s, Literal(w), rep) == s
    decreases |s|
  {
    if |s| > 0 {
      LiteralAbsentUnchanged(s[1..], w, rep);
    }
  }

  lemma {:induction false} TagFreeUnchanged(s: string, p: Pattern, rep: char)
    requires p.LineBreak? || p.ClosingTag? || p.AnyTag?
    requires !HasTag(s)
    ensures ReplaceAll(s, p, rep) == s
    decreases |s|
  {
    if |s| > 0 {
      TagFreeUnchanged(s[1..], p, rep);
    }
  }

  lemma {:induction false} CollapsedUnchanged(s: string)
    requires SingleSpaced(s) && PlainSpaces(s)
    ensures ReplaceAll(s, SpaceRun, ' ') == s
    decreases |s|
  {
    if |s| > 0 {
      if IsSpace(s[0]) {
        assert |s| > 1 ==> !IsSpace(s[1]);
        assert SkipSpace(s, 1) == 1;
      }
      assert Step(s, SpaceRun) == 1;
      assert SingleSpaced(s[1..]) && PlainSpaces(s[1..]);
      CollapsedUnchanged(s[1..]);
    }
  }

  /** A character that can begin a match of `p`. */
  predicate CanOpen(p: Pattern, c: char) {
    match p
    case LineBreak => c == '<'
    case ClosingTag(_) => c == '<'
    case AnyTag => c == '<'
    case Literal(w) => |w| > 0 && c == w[0]
    case SpaceRun => IsSpace(c)
  }

  lemma MatchOpens(p: Pattern, s: string)
    requires |s| > 0 && MatchLen(p, s) > 0
    ensures CanOpen(p, s[0])
  {
    if p.ClosingTag? {
      assert Lower(s[0]) == '<';
    }
  }

  /** Where nothing matches, the scan copies one character and moves on. */
  lemma CopyFront(s: string, p: Pattern, rep: char)
    requires |s| > 0 && MatchLen(p, s) == 0
    ensures ReplaceAll(s, p, rep) == [s[0]] + ReplaceAll(s[1..], p, rep)
  {
  }

  lemma NothingOpens(p: Pattern, s: string)
    requires |s| > 0 && !CanOpen(p, s[0])
    ensures MatchLen(p, s) == 0
  {
    if MatchLen(p, s) > 0 {
      MatchOpens(p, s);
    }
  }

  lemma ConsAppend(x: string, u: string)
    requires |x| > 0
    ensures [x[0]] + (x[1..] + u) == x + u
  {
  }

  /** A stretch no character of which can begin a match is copied as it
      is, and the scan goes on at its end. */
  lemma {:induction false} KeptPrefix(x: string, t: string, p: Pattern, rep: char)
    requires forall k :: 0 <= k < |x| ==> !CanOpen(p, x[k])
    ensures ReplaceAll(x + t, p, rep) == x + ReplaceAll(t, p, rep)
    decreases |x|
  {
    var s := x + t;
    if |x| == 0 {
      assert s == t;
    } else {
      NothingOpens(p, s);
      CopyFront(s, p, rep);
      assert s[1..] == x[1..] + t;
      KeptPrefix(x[1..], t, p, rep);
      ConsAppend(x, ReplaceAll(t, p, rep));
    }
  }

  lemma Untouched(x: string, p: Pattern, rep: char)
    requires forall k :: 0 <= k < |x| ==> !CanOpen(p, x[k])
    ensures ReplaceAll(x, p, rep) == x
  {
    KeptPrefix(x, [], p, rep);
    assert x + [] == x;
  }
}

=== FILE: single_shot.dfy ===
/** The handlers that deal with one message per run: `processLatestEmail`
    of test.js:95-173 (labels what it has dealt with) and of
    test_working.js:81-139 (never labels), and the push handler
    `gmailPaytmSync` of index.js:38-67. */
module SingleShot {
  import opened Base
  import opened Text
  import opened MimeParts
  import opened FieldExtract
  import opened Mailbox

  /** Whether the promise a run returns resolves or rejects. */
  datatype Ending = Completed | Rejected

  /** The calls a run makes, and how it ends. */
  datatype Shot = Shot(calls: seq<Call>, ending: Ending)

  /** `processLatestEmail` of test.js. `listed` is the answer of the list
      call (`maxResults: 1`), None when it or the label lookup throws. Only
      the first message is touched. No body: nothing else happens. An
      amount: POST, then label inside the same `try`, so the label follows
      a resolved POST and any failure is caught. No amount: label, outside
      any `try`, so its failure rejects the run. */
  function ProcessLatestLabelled(listed: Option<seq<Turn>>): (r: Shot)
    ensures listed.None? ==> r == Shot([], Rejected)
    ensures listed == Some([]) ==> r == Shot([], Completed)
    ensures listed.Some? && |listed.value| > 0 ==>
              var t := listed.value[0];
              && |r.calls| >= 1 && r.calls[0] == Get(t.id)
              && (forall k :: 0 <= k < |r.calls| ==> r.calls[k].id == t.id)
              && (Posts(r.calls) <==> t.outcome.WithAmount?)
              && (t.outcome.WithAmount? ==> r.calls[1] == Post(t.id, Plain(t.outcome.fields)))
              && (Marks(r.calls) <==> t.outcome.NoAmount? || (t.outcome.WithAmount? && t.postOk))
              && (forall i, j :: 0 <= i < |r.calls| && 0 <= j < |r.calls| && r.calls[i].Post? && r.calls[j].Mark? ==> i < j)
              && (r.ending == Rejected <==> t.outcome.Unreadable? || (t.outcome.NoAmount? && !t.markOk))
  {
    if listed.None? then Shot([], Rejected)
    else if |listed.value| == 0 then Shot([], Completed)
    else
      var t := listed.value[0];
      match t.outcome
      case Unreadable => Shot([Get(t.id)], Rejected)
      case NoBody(_) => Shot([Get(t.id)], Completed)
      case NoAmount(_) =>
        var calls := [Get(t.id), Mark(t.id)];
        assert calls[1].Mark?;
        Shot(calls, if t.markOk then Completed else Rejected)
      case WithAmount(_, _, fields) =>
        if t.postOk then
          var calls := [Get(t.id), Post(t.id, Plain(fields)), Mark(t.id)];
          assert calls[1].Post? && calls[2].Mark?;
          Shot(calls, Completed)
        else
          var calls := [Get(t.id), Post(t.id, Plain(fields))];
          assert calls[1].Post?;
          Shot(calls, Completed)
  }

  /** `processLatestEmail` of test_working.js: the same walk without any
      label call, and the POST's rejection caught on the spot, so a run
      with an amount always completes. */
  function ProcessLatestUnlabelled(listed: Option<seq<Turn>>): (r: Shot)
    ensures !Marks(r.calls)
    ensures listed.None? ==> r == Shot([], Rejected)
    ensures listed == Some([]) ==> r == Shot([], Completed)
    ensures listed.Some? && |listed.value| > 0 ==>
              var t := listed.value[0];
              && |r.calls| >= 1 && r.calls[0] == Get(t.id)
              && (forall k :: 0 <= k < |r.calls| ==> r.calls[k].id == t.id)
              && (Posts(r.calls) <==> t.outcome.WithAmount?)
              && (t.outcome.WithAmount? ==> r.calls[1] == Post(t.id, Plain(t.outcome.fields)))
              && (r.ending == Rejected <==> t.outcome.Unreadable?)
  {
    if listed.None? then Shot([], Rejected)
    else if |listed.value| == 0 then Shot([], Completed)
    else
      var t := listed.value[0];
      match t.outcome
      case Unreadable => Shot([Get(t.id)], Rejected)
      case NoBody(_) => Shot([Get(t.id)], Completed)
      case NoAmount(_) => Shot([Get(t.id)], Completed)
      case WithAmount(_, _, fields) =>
        var calls := [Get(t.id), Post(t.id, Plain(fields))];
        assert calls[1].Post?;
        Shot(calls, Completed)
  }

  /** The calls other than label calls, in order. */
  function Unlabelled(calls: seq<Call>): (r: seq<Call>)
    ensures |r| <= |calls|
    ensures forall k :: 0 <= k < |r| ==> !r[k].Mark?
  {
    if |calls| == 0 then []
    else (if calls[0].Mark? then [] else [calls[0]]) + Unlabelled(calls[1..])
  }

  /** Leaving out the label calls, the two versions of `processLatestEmail`
      make the same calls; they end differently only when an amount-less
      message could not be labelled. */
  lemma LabelsAreTheOnlyDifference(listed: Option<seq<Turn>>)
    ensures Unlabelled(ProcessLatestLabelled(listed).calls) == ProcessLatestUnlabelled(listed).calls
    ensures ProcessLatestLabelled(listed).ending != ProcessLatestUnlabelled(listed).ending <==>
              listed.Some? && |listed.value| > 0 && listed.value[0].outcome.NoAmount? && !listed.value[0].markOk
  {
    if listed.Some? && |listed.value| > 0 {
      var t := listed.value[0];
      var calls := ProcessLatestLabelled(listed).calls;
      assert Unlabelled([]) == [];
      if t.outcome.NoAmount? {
        assert calls[1..][1..] == [];
        assert Unlabelled(calls[1..]) == [];
      } else if t.outcome.WithAmount? {
        if t.postOk {
          assert calls[1..][1..][1..] == [];
          assert Unlabelled(calls[1..][1..]) == [];
          assert Unlabelled(calls[1..]) == [calls[1]];
        } else {
          assert calls[1..][1..] == [];
          assert Unlabelled(calls[1..]) == [calls[1]];
        }
      } else {
        assert calls[1..] == [];
      }
    }
  }

  /** The Pub/Sub notification `event.data` after base64 decoding ("" when
      absent), and `JSON.parse` of it: `Malformed` when that throws,
      otherwise the `emailMessageId` ("" when absent). */
  datatype Notice = Malformed | Parsed(emailMessageId: string)

  /** One push: the decoded event data and its parse, the payload
      `messages.get` returns for the id (None when it throws), and whether
      the sink POST resolves. */
  datatype Push = Push(data: string, notice: Notice, fetched: Option<Part>, postOk: bool)

  /** `getMessageById`: the decoded data of the first part, or "" when
      there is no first part or it has no data. The top-level body and
      every other part are ignored. */
  function FirstPartText(payload: Part): (text: string)
    ensures |payload.parts| == 0 || !HasData(payload.parts[0]) ==> text == ""
    ensures |payload.parts| > 0 && HasData(payload.parts[0]) ==> text == payload.parts[0].body.value.decoded
  {
    if |payload.parts| > 0 && HasData(payload.parts[0]) then payload.parts[0].body.value.decoded else ""
  }

  /** The mail is posted only when it mentions both a received payment and
      the Paytm sender. */
  predicate IsPaymentMail(body: string) {
    Contains(body, "Payment Received") && Contains(body, "no-reply@paytm.com")
  }

  /** `gmailPaytmSync`: every failure is caught, so the handler always
      completes; the calls it makes are the outcome. Nothing is fetched
      without data and an id; nothing is posted unless the fetched text is
      a payment mail, and then what is posted is `extractPaytmData` of it. */
  function GmailPaytmSync(e: Push): (calls: seq<Call>)
    ensures e.data == "" || e.notice.Malformed? || e.notice.emailMessageId == "" ==> calls == []
    ensures |calls| <= 2
    ensures Posts(calls) <==>
              && e.data != "" && e.notice.Parsed? && e.notice.emailMessageId != ""
              && e.fetched.Some? && IsPaymentMail(FirstPartText(e.fetched.value))
    ensures Posts(calls) ==>
              calls == [Get(e.notice.emailMessageId),
                        Post(e.notice.emailMessageId, Plain(ExtractPaytmData(FirstPartText(e.fetched.value))))]
    ensures !Marks(calls)
  {
    if e.data == "" || e.notice.Malformed? || e.notice.emailMessageId == "" then []
    else
      var id := e.notice.emailMessageId;
      if e.fetched.None? then [Get(id)]
      else
        var body := FirstPartText(e.fetched.value);
        if !IsPaymentMail(body) then [Get(id)]
        else
          var calls := [Get(id), Post(id, Plain(ExtractPaytmData(body)))];
          assert calls[1].Post?;
          calls
  }

  /** A push is answered by at most one POST, for the id it names, whose
      amount, order id and UPI id are each made of their pattern's
      characters alone. */
  lemma PushPostsCleanFields(e: Push)
    ensures var calls := GmailPaytmSync(e);
            forall k :: 0 <= k < |calls| && calls[k].Post? ==>
              && calls[k].id == e.notice.emailMessageId
              && calls[k].payload.Plain?
              && var f := calls[k].payload.fields;
                 && (f.amount.Some? ==> forall c :: c in f.amount.value ==> InClass(c, DigitsCommas))
                 && (f.orderId.Some? ==> forall c :: c in f.orderId.value ==> InClass(c, UpperAlnum))
                 && (f.fromUpi.Some? ==> forall c :: c in f.fromUpi.value ==> InClass(c, UpiCharsNoDot))
  {
    var calls := GmailPaytmSync(e);
    if Posts(calls) {
      assert calls[0].Get?;
    }
  }
}

=== FILE: sync_batch.dfy ===
/** `processEmails` of the polling scripts: one pass over the listed
    messages, each fetched, parsed, posted to the sink and labelled, the
    pass returning the new watermark (cursor) in Unix seconds.
    others/test_new.js:161-271 reverses the list and posts timestamps
    taken from the mail; test_new.js:118-196 keeps list order and posts
    the raw Date header. */
module SyncBatch {
  import opened Base
  import opened MimeParts
  import opened HtmlText
  import opened FieldExtract
  import opened Mailbox

  /** The two generations of the polling script: others/test_new.js,
      which writes its watermark back to the sink, and test_new.js,
      which only reads it. */
  datatype Generation = WritesBack | ReadsOnly

  /** `emailHeaderTimestamp`: the Date header in seconds when it parses,
      else the internal date in seconds. */
  function HeaderTimestamp(mail: Mail): (r: int)
    ensures mail.headerDateMs.Some? ==> r * 1000 <= mail.headerDateMs.value < r * 1000 + 1000
    ensures mail.headerDateMs.None? ==> r * 1000 <= mail.internalDateMs < r * 1000 + 1000
  {
    if mail.headerDateMs.Some? then Seconds(mail.headerDateMs.value) else Seconds(mail.internalDateMs)
  }

  /** `txnTimestamp || emailHeaderTimestamp`: the body time in seconds,
      unless it is absent or rounds down to 0, which `||` treats as false. */
  function TxnTime(mail: Mail): (r: int)
    ensures mail.bodyTimeMs.None? ==> r == HeaderTimestamp(mail)
    ensures mail.bodyTimeMs.Some? && Seconds(mail.bodyTimeMs.value) == 0 ==> r == HeaderTimestamp(mail)
    ensures mail.bodyTimeMs.Some? && Seconds(mail.bodyTimeMs.value) != 0 ==>
              r != 0 && r * 1000 <= mail.bodyTimeMs.value < r * 1000 + 1000
  {
    if mail.bodyTimeMs.Some? && Seconds(mail.bodyTimeMs.value) != 0 then Seconds(mail.bodyTimeMs.value)
    else HeaderTimestamp(mail)
  }

  /** The object sent to the sink for a message with an amount. */
  function PayloadFor(g: Generation, mail: Mail, fields: Fields): (p: Payload)
    ensures g == WritesBack ==> p.Synced? && p.amount == fields.amount && p.orderId == fields.orderId
                                && p.accountOf == fields.accountOf && p.fromUpi == fields.fromUpi
                                && p.timestamp == HeaderTimestamp(mail) && p.txnTime == TxnTime(mail)
    ensures g == ReadsOnly ==> p.Stamped? && p.fields == fields && p.dateHeader == mail.dateHeader
                               && (p.unixTimestamp.Some? <==> mail.headerDateMs.Some?)
                               && (p.unixTimestamp.Some? ==> p.unixTimestamp.value == Seconds(mail.headerDateMs.value))
  {
    match g
    case WritesBack =>
      Synced(fields.amount, fields.orderId, fields.accountOf, fields.fromUpi, HeaderTimestamp(mail), TxnTime(mail))
    case ReadsOnly =>
      var unix := if mail.headerDateMs.Some? then Some(Seconds(mail.headerDateMs.value)) else None;
      Stamped(fields, mail.dateHeader, unix)
  }

  /** The two generations send the same four extracted fields; the
      header seconds of the writing generation are the `unixtimestamp`
      of the reading one when the Date header parses, and the internal
      date's seconds, where the reading one sends null, when it does not. */
  lemma GenerationsPostSameFields(mail: Mail, fields: Fields)
    ensures var s := PayloadFor(WritesBack, mail, fields);
            var t := PayloadFor(ReadsOnly, mail, fields);
            && s.amount == t.fields.amount && s.orderId == t.fields.orderId
            && s.accountOf == t.fields.accountOf && s.fromUpi == t.fields.fromUpi
            && (t.unixTimestamp.Some? ==> s.timestamp == t.unixTimestamp.value)
            && (t.unixTimestamp.None? ==> s.timestamp == Seconds(mail.internalDateMs))
  {
  }

  /** `||` falls back only on a missing or zero body time: the transaction
      time differs from the header time only by being the body time, and
      it is 0 only when the header time is 0 as well. */
  lemma TxnTimeFallsBack(mail: Mail)
    ensures TxnTime(mail) != HeaderTimestamp(mail) ==>
              mail.bodyTimeMs.Some? && TxnTime(mail) == Seconds(mail.bodyTimeMs.value)
    ensures TxnTime(mail) == 0 ==> HeaderTimestamp(mail) == 0
  {
  }

  /** The label call is made: the message has no body, no amount, or an
      amount whose POST resolved. */
  predicate MarkAttempted(t: Turn) {
    t.outcome.NoBody? || t.outcome.NoAmount? || (t.outcome.WithAmount? && t.postOk)
  }

  /** The message counts toward the watermark: its label call completed. */
  predicate Counted(t: Turn) {
    MarkAttempted(t) && t.markOk
  }

  /** The watermark after a pass, and the calls the pass made. */
  datatype Batch = Batch(cursor: int, calls: seq<Call>)

  /** The object a message with an amount is posted with. */
  function PayloadOf(g: Generation, o: Outcome): Payload
    requires o.WithAmount?
  {
    PayloadFor(g, o.mail, o.fields)
  }

  /** One turn of the loop body, inside its `try`. The calls: the get
      first, then a POST exactly for a message with an amount, then the
      label call exactly when the message has no body, no amount, or a
      POST that resolved; all about this message alone. The watermark
      moves to the message's internal date, if later, exactly when its
      label call completed; any throw ends the turn with the watermark as
      it was. */
  function Visit(g: Generation, cursor: int, t: Turn): (r: Batch)
    ensures |r.calls| >= 1 && r.calls[0] == Get(t.id)
    ensures Fetched(r.calls) == [t.id]
    ensures forall k :: 0 <= k < |r.calls| ==> r.calls[k].id == t.id
    ensures Posts(r.calls) <==> t.outcome.WithAmount?
    ensures t.outcome.WithAmount? ==> r.calls[1] == Post(t.id, PayloadOf(g, t.outcome))
    ensures Marks(r.calls) <==> MarkAttempted(t)
    ensures forall i, j :: 0 <= i < |r.calls| && 0 <= j < |r.calls| && r.calls[i].Post? && r.calls[j].Mark? ==> i < j
    ensures Counted(t) ==> r.cursor == Max(cursor, t.outcome.seconds)
    ensures !Counted(t) ==> r.cursor == cursor
  {
    match t.outcome
    case Unreadable =>
      assert Fetched([Get(t.id)]) == [t.id] + Fetched([]);
      Batch(cursor, [Get(t.id)])
    case NoBody(seconds) =>
      LabelOnly(t.id);
      Batch(if t.markOk then Max(cursor, seconds) else cursor, [Get(t.id), Mark(t.id)])
    case NoAmount(seconds) =>
      LabelOnly(t.id);
      Batch(if t.markOk then Max(cursor, seconds) else cursor, [Get(t.id), Mark(t.id)])
    case WithAmount(seconds, _, _) =>
      var post := Post(t.id, PayloadOf(g, t.outcome));
      if t.postOk then
        PostThenLabel(t.id, post);
        Batch(if t.markOk then Max(cursor, seconds) else cursor, [Get(t.id), post, Mark(t.id)])
      else
        PostOnly(t.id, post);
        Batch(cursor, [Get(t.id), post])
  }

  lemma LabelOnly(id: string)
    ensures Fetched([Get(id), Mark(id)]) == [id]
    ensures Marks([Get(id), Mark(id)]) && !Posts([Get(id), Mark(id)])
  {
    var calls := [Get(id), Mark(id)];
    assert calls[1..][1..] == [];
    assert calls[1].Mark?;
  }

  lemma PostOnly(id: string, post: Call)
    requires post.Post? && post.id == id
    ensures Fetched([Get(id), post]) == [id]
    ensures Posts([Get(id), post]) && !Marks([Get(id), post])
  {
    var calls := [Get(id), post];
    assert calls[1..][1..] == [];
    assert calls[1].Post?;
  }

  lemma PostThenLabel(id: string, post: Call)
    requires post.Post? && post.id == id
    ensures Fetched([Get(id), post, Mark(id)]) == [id]
    ensures Posts([Get(id), post, Mark(id)]) && Marks([Get(id), post, Mark(id)])
  {
    var calls := [Get(id), post, Mark(id)];
    assert calls[2..][1..] == [];
    assert Fetched(calls[2..]) == [];
    assert calls[1..][1..] == calls[2..];
    assert Fetched(calls[1..]) == [];
    assert calls[1].Post?;
    assert calls[2].Mark?;
    assert Marks(calls);
  }

  function Ids(ts: seq<Turn>): (ids: seq<string>)
    ensures |ids| == |ts| && forall k :: 0 <= k < |ts| ==> ids[k] == ts[k].id
  {
    seq(|ts|, k requires 0 <= k < |ts| => ts[k].id)
  }

  /** The calls of a turn do not depend on the watermark it starts from. */
  lemma VisitCallsIgnoreCursor(g: Generation, cursor: int, t: Turn)
    ensures Visit(g, cursor, t).calls == Visit(g, 0, t).calls
  {
  }

  /** The call log of each message, in the order given. */
  function Logs(g: Generation, ts: seq<Turn>): (ls: seq<seq<Call>>)
    ensures |ls| == |ts| && forall k :: 0 <= k < |ts| ==> ls[k] == Visit(g, 0, ts[k]).calls
  {
    seq(|ts|, k requires 0 <= k < |ts| => Visit(g, 0, ts[k]).calls)
  }

  /** The logs one after the other. */
  function Concat(logs: seq<seq<Call>>): (r: seq<Call>)
    decreases |logs|
  {
    if |logs| == 0 then [] else logs[0] + Concat(logs[1..])
  }

  /** A call is in the joined log exactly when it is in one of the logs. */
  lemma {:induction false} ConcatHas(logs: seq<seq<Call>>, c: Call)
    ensures c in Concat(logs) <==> exists k :: 0 <= k < |logs| && c in logs[k]
    decreases |logs|
  {
    if |logs| > 0 {
      ConcatHas(logs[1..], c);
      if exists k :: 0 <= k < |logs[1..]| && c in logs[1..][k] {
        var k :| 0 <= k < |logs[1..]| && c in logs[1..][k];
        assert logs[k + 1] == logs[1..][k];
      }
      if exists k :: 1 <= k < |logs| && c in logs[k] {
        var k :| 1 <= k < |logs| && c in logs[k];
        assert logs[1..][k - 1] == logs[k];
      }
    }
  }

  /** The log of a list is the first message's log, then the rest's. */
  lemma LogsStep(g: Generation, cursor: int, ts: seq<Turn>)
    requires |ts| > 0
    ensures Concat(Logs(g, ts)) == Visit(g, cursor, ts[0]).calls + Concat(Logs(g, ts[1..]))
  {
    VisitCallsIgnoreCursor(g, cursor, ts[0]);
    var ls := Logs(g, ts);
    assert ls[1..] == Logs(g, ts[1..]);
  }

  /** The `for` loop over the messages in the order given. The cursor it
      returns is the largest of the starting cursor and the seconds of
      the counted messages; the calls are each message's log in turn, so
      every message is fetched, in order, even after a failed one. */
  function Fold(g: Generation, cursor: int, ts: seq<Turn>): (r: Batch)
    ensures r.cursor >= cursor
    ensures forall k :: 0 <= k < |ts| && Counted(ts[k]) ==> r.cursor >= ts[k].outcome.seconds
    ensures r.cursor == cursor || exists k :: 0 <= k < |ts| && Counted(ts[k]) && r.cursor == ts[k].outcome.seconds
    ensures Fetched(r.calls) == Ids(ts)
    ensures r.calls == Concat(Logs(g, ts))
    decreases |ts|
  {
    if |ts| == 0 then Batch(cursor, [])
    else
      var v := Visit(g, cursor, ts[0]);
      var rest := Fold(g, v.cursor, ts[1..]);
      FoldStep(g, cursor, ts, v, rest);
      LogsStep(g, cursor, ts);
      Batch(rest.cursor, v.calls + rest.calls)
  }

  /** The inductive step of `Fold`'s contract. */
  lemma FoldStep(g: Generation, cursor: int, ts: seq<Turn>, v: Batch, rest: Batch)
    requires |ts| > 0 && v == Visit(g, cursor, ts[0])
    requires rest.cursor >= v.cursor
    requires forall k :: 0 <= k < |ts[1..]| && Counted(ts[1..][k]) ==> rest.cursor >= ts[1..][k].outcome.seconds
    requires rest.cursor == v.cursor || exists k :: 0 <= k < |ts[1..]| && Counted(ts[1..][k]) && rest.cursor == ts[1..][k].outcome.seconds
    requires Fetched(rest.calls) == Ids(ts[1..])
    ensures rest.cursor >= cursor
    ensures forall k :: 0 <= k < |ts| && Counted(ts[k]) ==> rest.cursor >= ts[k].outcome.seconds
    ensures rest.cursor == cursor || exists k :: 0 <= k < |ts| && Counted(ts[k]) && rest.cursor == ts[k].outcome.seconds
    ensures Fetched(v.calls + rest.calls) == Ids(ts)
  {
    FetchedStep(g, cursor, ts, v, rest);
    CursorBoundStep(ts, rest.cursor);
    if rest.cursor != cursor {
      if rest.cursor == v.cursor {
        assert Counted(ts[0]) && rest.cursor == ts[0].outcome.seconds;
      } else {
        var k :| 0 <= k < |ts[1..]| && Counted(ts[1..][k]) && rest.cursor == ts[1..][k].outcome.seconds;
        assert ts[k + 1] == ts[1..][k];
      }
    }
  }

  lemma FetchedStep(g: Generation, cursor: int, ts: seq<Turn>, v: Batch, rest: Batch)
    requires |ts| > 0 && v == Visit(g, cursor, ts[0])
    requires Fetched(rest.calls) == Ids(ts[1..])
    ensures Fetched(v.calls + rest.calls) == Ids(ts)
  {
    FetchedAppend(v.calls, rest.calls);
    assert Ids(ts) == [ts[0].id] + Ids(ts[1..]);
  }

  lemma CursorBoundStep(ts: seq<Turn>, c: int)
    requires |ts| > 0 && (Counted(ts[0]) ==> c >= ts[0].outcome.seconds)
    requires forall k :: 0 <= k < |ts[1..]| && Counted(ts[1..][k]) ==> c >= ts[1..][k].outcome.seconds
    ensures forall k :: 0 <= k < |ts| && Counted(ts[k]) ==> c >= ts[k].outcome.seconds
  {
    forall k | 0 <= k < |ts| && Counted(ts[k]) ensures c >= ts[k].outcome.seconds {
      if k > 0 {
        assert ts[1..][k - 1] == ts[k];
      }
    }
  }

  /** others/test_new.js reverses the list Gmail returns, newest first,
      to visit the oldest first; test_new.js keeps Gmail's order. */
  function VisitOrder<T>(g: Generation, listed: seq<T>): (r: seq<T>)
    ensures |r| == |listed|
    ensures g == WritesBack ==> forall k :: 0 <= k < |listed| ==> r[k] == listed[|listed| - 1 - k]
    ensures g == ReadsOnly ==> r == listed
  {
    match g
    case WritesBack => seq(|listed|, k requires 0 <= k < |listed| => listed[|listed| - 1 - k])
    case ReadsOnly => listed
  }

  /** `processEmails` after the list call: an empty list returns the cursor
      untouched and makes no call; otherwise the messages are visited in
      `VisitOrder`, and the cursor is the maximum of the input and the
      seconds of exactly the messages whose label call completed. */
  function ProcessEmails(g: Generation, cursor: int, listed: seq<Turn>): (r: Batch)
    ensures |listed| == 0 ==> r == Batch(cursor, [])
    ensures r.cursor >= cursor
    ensures forall k :: 0 <= k < |listed| && Counted(listed[k]) ==> r.cursor >= listed[k].outcome.seconds
    ensures r.cursor == cursor || exists k :: 0 <= k < |listed| && Counted(listed[k]) && r.cursor == listed[k].outcome.seconds
    ensures Fetched(r.calls) == Ids(VisitOrder(g, listed))
    ensures r.calls == Concat(Logs(g, VisitOrder(g, listed)))
  {
    if |listed| == 0 then Batch(cursor, [])
    else
      var order := VisitOrder(g, listed);
      var r := Fold(g, cursor, order);
      ReorderedMax(listed, order, cursor, r.cursor);
      r
  }

  /** Visiting in reverse visits the same messages, so the maximum over
      the counted ones is the same. */
  lemma ReorderedMax(listed: seq<Turn>, order: seq<Turn>, cursor: int, c: int)
    requires |order| == |listed|
    requires (forall k :: 0 <= k < |listed| ==> order[k] == listed[|listed| - 1 - k]) || order == listed
    requires forall k :: 0 <= k < |order| && Counted(order[k]) ==> c >= order[k].outcome.seconds
    requires c == cursor || exists k :: 0 <= k < |order| && Counted(order[k]) && c == order[k].outcome.seconds
    ensures forall k :: 0 <= k < |listed| && Counted(listed[k]) ==> c >= listed[k].outcome.seconds
    ensures c == cursor || exists k :: 0 <= k < |listed| && Counted(listed[k]) && c == listed[k].outcome.seconds
  {
    if order != listed {
      forall k | 0 <= k < |listed| && Counted(listed[k]) ensures c >= listed[k].outcome.seconds {
        assert order[|listed| - 1 - k] == listed[k];
      }
      if c != cursor {
        var k :| 0 <= k < |order| && Counted(order[k]) && c == order[k].outcome.seconds;
        assert listed[|listed| - 1 - k] == order[k];
      }
    }
  }

  /** Both generations end a pass at the same watermark: the maximum does
      not depend on the visiting order. */
  lemma CursorIgnoresOrder(cursor: int, listed: seq<Turn>)
    ensures ProcessEmails(WritesBack, cursor, listed).cursor == ProcessEmails(ReadsOnly, cursor, listed).cursor
  {
    var a := ProcessEmails(WritesBack, cursor, listed).cursor;
    var b := ProcessEmails(ReadsOnly, cursor, listed).cursor;
    assert a >= b;
    assert b >= a;
  }

  /** No two listed messages share an id, as Gmail ids are unique. */
  predicate DistinctIds(ts: seq<Turn>) {
    forall i, j :: 0 <= i < |ts| && 0 <= j < |ts| && i != j ==> ts[i].id != ts[j].id
  }

  /** Some call of the log POSTs the message `id`. */
  predicate PostedFor(calls: seq<Call>, id: string) {
    exists c :: c in calls && c.Post? && c.id == id
  }

  /** With distinct ids, a call about one message can only come from that
      message's own log. */
  lemma OwnLogOnly(g: Generation, ts: seq<Turn>, k: int, c: Call)
    requires 0 <= k < |ts| && DistinctIds(ts) && c.id == ts[k].id
    ensures c in Concat(Logs(g, ts)) <==> c in Visit(g, 0, ts[k]).calls
  {
    var ls := Logs(g, ts);
    ConcatHas(ls, c);
    if c in Concat(ls) {
      var j :| 0 <= j < |ls| && c in ls[j];
      var i :| 0 <= i < |ls[j]| && ls[j][i] == c;
      assert c.id == ts[j].id;
    }
  }

  /** The loop's per-message rules survive the joining of the logs: a
      message is labelled exactly when its turn reaches the label call,
      and POSTed exactly when an amount was extracted, with its payload. */
  lemma FoldPerMessage(g: Generation, ts: seq<Turn>, k: int)
    requires 0 <= k < |ts| && DistinctIds(ts)
    ensures Mark(ts[k].id) in Concat(Logs(g, ts)) <==> MarkAttempted(ts[k])
    ensures PostedFor(Concat(Logs(g, ts)), ts[k].id) <==> ts[k].outcome.WithAmount?
    ensures ts[k].outcome.WithAmount? ==> Post(ts[k].id, PayloadOf(g, ts[k].outcome)) in Concat(Logs(g, ts))
  {
    var id := ts[k].id;
    var v := Visit(g, 0, ts[k]).calls;
    OwnLogOnly(g, ts, k, Mark(id));
    if Marks(v) {
      var i :| 0 <= i < |v| && v[i].Mark?;
      assert v[i] == Mark(id);
    }
    if ts[k].outcome.WithAmount? {
      OwnLogOnly(g, ts, k, Post(id, PayloadOf(g, ts[k].outcome)));
      assert v[1] in v;
    }
    if PostedFor(Concat(Logs(g, ts)), id) {
      var c :| c in Concat(Logs(g, ts)) && c.Post? && c.id == id;
      OwnLogOnly(g, ts, k, c);
      var i :| 0 <= i < |v| && v[i] == c;
    }
  }

  /** Reversing the list keeps the ids distinct and keeps every message. */
  lemma VisitOrderKeeps(g: Generation, listed: seq<Turn>, k: int) returns (j: int)
    requires 0 <= k < |listed| && DistinctIds(listed)
    ensures DistinctIds(VisitOrder(g, listed))
    ensures 0 <= j < |listed| && VisitOrder(g, listed)[j] == listed[k]
  {
    var order := VisitOrder(g, listed);
    var n := |listed|;
    if g == WritesBack {
      forall i, i' | 0 <= i < n && 0 <= i' < n && i != i' ensures order[i].id != order[i'].id {
        assert order[i] == listed[n - 1 - i] && order[i'] == listed[n - 1 - i'];
      }
      j := n - 1 - k;
    } else {
      j := k;
    }
  }

  /** A pass over distinct messages labels each message exactly when its
      turn reaches the label call, and POSTs it exactly when an amount was
      extracted, whatever the other messages do. */
  lemma ProcessPerMessage(g: Generation, cursor: int, listed: seq<Turn>, k: int)
    requires 0 <= k < |listed| && DistinctIds(listed)
    ensures Mark(listed[k].id) in ProcessEmails(g, cursor, listed).calls <==> MarkAttempted(listed[k])
    ensures PostedFor(ProcessEmails(g, cursor, listed).calls, listed[k].id) <==> listed[k].outcome.WithAmount?
    ensures listed[k].outcome.WithAmount? ==>
              Post(listed[k].id, PayloadOf(g, listed[k].outcome)) in ProcessEmails(g, cursor, listed).calls
  {
    var j := VisitOrderKeeps(g, listed, k);
    FoldPerMessage(g, VisitOrder(g, listed), j);
  }

  /** `processEmails` on the listed messages themselves, each classified
      (fetched, its body located, cleaned and scanned) when its turn
      comes. The watermark ends at or past the internal date of every
      readable message that reached its label call and was labelled. */
  function ProcessMessages(g: Generation, cursor: int, ms: seq<Message>): (r: Batch)
    ensures r.cursor >= cursor
    ensures forall k :: 0 <= k < |ms| && LabelledMessage(ms[k]) ==>
              r.cursor >= Seconds(ms[k].fetched.value.internalDateMs)
    ensures r.cursor == cursor || exists k :: 0 <= k < |ms| && LabelledMessage(ms[k])
                                             && r.cursor == Seconds(ms[k].fetched.value.internalDateMs)
  {
    var ts := Turns(ms);
    CountedMessages(ms, ts);
    MessagesCursorReached(g, cursor, ms, ts);
    ProcessEmails(g, cursor, ts)
  }

  /** The watermark of the pass is one a labelled message reached. */
  lemma MessagesCursorReached(g: Generation, cursor: int, ms: seq<Message>, ts: seq<Turn>)
    requires ts == Turns(ms)
    requires forall k :: 0 <= k < |ms| ==> (Counted(ts[k]) <==> LabelledMessage(ms[k]))
    requires forall k :: 0 <= k < |ms| && Counted(ts[k]) ==> ts[k].outcome.seconds == Seconds(ms[k].fetched.value.internalDateMs)
    ensures var c := ProcessEmails(g, cursor, ts).cursor;
            c == cursor || exists k :: 0 <= k < |ms| && LabelledMessage(ms[k]) && c == Seconds(ms[k].fetched.value.internalDateMs)
  {
    var c := ProcessEmails(g, cursor, ts).cursor;
    if c != cursor {
      var k :| 0 <= k < |ts| && Counted(ts[k]) && c == ts[k].outcome.seconds;
      assert LabelledMessage(ms[k]);
    }
  }

  /** The message was readable, reached its label call (no amount, or a
      POST that resolved) and was labelled. */
  predicate LabelledMessage(m: Message) {
    Readable(m) && (!HasAmount(m) || m.postOk) && m.markOk
  }

  /** A classified message counts toward the watermark exactly when it
      was labelled, with its internal date's seconds. */
  lemma CountedMessages(ms: seq<Message>, ts: seq<Turn>)
    requires ts == Turns(ms)
    ensures forall k :: 0 <= k < |ms| ==> (Counted(ts[k]) <==> LabelledMessage(ms[k]))
    ensures forall k :: 0 <= k < |ms| && Counted(ts[k]) ==> ts[k].outcome.seconds == Seconds(ms[k].fetched.value.internalDateMs)
  {
    forall k | 0 <= k < |ms|
      ensures Counted(ts[k]) <==> LabelledMessage(ms[k])
      ensures Counted(ts[k]) ==> ts[k].outcome.seconds == Seconds(ms[k].fetched.value.internalDateMs)
    {
      assert ts[k] == Classify(ms[k]);
    }
  }

  /** No two listed messages share an id. */
  predicate DistinctMessageIds(ms: seq<Message>) {
    forall i, j :: 0 <= i < |ms| && 0 <= j < |ms| && i != j ==> ms[i].id != ms[j].id
  }

  /** Each listed message is POSTed exactly when its located body yields
      an amount, with the payload built from the fields `extractData`
      finds in the cleaned body, and is labelled exactly when it was
      readable and either had no amount or its POST resolved; an
      unreadable message is only fetched. */
  lemma MessageCalls(g: Generation, cursor: int, ms: seq<Message>, k: int)
    requires 0 <= k < |ms| && DistinctMessageIds(ms)
    ensures PostedFor(ProcessMessages(g, cursor, ms).calls, ms[k].id) <==> HasAmount(ms[k])
    ensures HasAmount(ms[k]) ==>
              var mail := ms[k].fetched.value;
              var fields := ExtractData(CleanHtmlText(LocateBody(mail.payload).value.decoded));
              Post(ms[k].id, PayloadFor(g, mail, fields)) in ProcessMessages(g, cursor, ms).calls
    ensures Mark(ms[k].id) in ProcessMessages(g, cursor, ms).calls <==> Readable(ms[k]) && (!HasAmount(ms[k]) || ms[k].postOk)
  {
    var ts := Turns(ms);
    forall i, j | 0 <= i < |ts| && 0 <= j < |ts| && i != j ensures ts[i].id != ts[j].id {
      assert ts[i] == Classify(ms[i]) && ts[j] == Classify(ms[j]);
    }
    assert ts[k] == Classify(ms[k]);
    ProcessPerMessage(g, cursor, ts, k);
  }

  /** A readable message whose body cannot be located is labelled without
      any POST. */
  lemma NoBodyLabelledUnposted(g: Generation, cursor: int, ms: seq<Message>, k: int)
    requires 0 <= k < |ms| && DistinctMessageIds(ms)
    requires Readable(ms[k]) && LocateBody(ms[k].fetched.value.payload).None?
    ensures Mark(ms[k].id) in ProcessMessages(g, cursor, ms).calls
    ensures !PostedFor(ProcessMessages(g, cursor, ms).calls, ms[k].id)
  {
    MessageCalls(g, cursor, ms, k);
  }

  /** A message whose POST throws is never labelled, yet a newer message
      that succeeds afterwards moves the watermark past it: the next
      listing (`after:` the watermark) no longer returns it, so its
      payment is never delivered. */
  lemma FailedPostOvertaken(cursor: int, failed: Turn, later: Turn)
    requires failed.outcome.WithAmount? && !failed.postOk
    requires Counted(later) && failed.id != later.id
    requires cursor < failed.outcome.seconds < later.outcome.seconds
    ensures var r := ProcessEmails(WritesBack, cursor, [later, failed]);
            r.cursor == later.outcome.seconds && r.cursor > failed.outcome.seconds && Mark(failed.id) !in r.calls
  {
    var order := VisitOrder(WritesBack, [later, failed]);
    assert order == [failed, later];
    var v := Visit(WritesBack, cursor, failed);
    var w := Visit(WritesBack, v.cursor, later);
    assert order[1..] == [later];
    assert Fold(WritesBack, v.cursor, [later]) == Batch(w.cursor, w.calls + []) by {
      assert [later][1..] == [];
    }
    assert Mark(failed.id) !in v.calls;
    assert Mark(failed.id) !in w.calls;
  }
}

=== FILE: text.dfy ===
/** Character classes and string helpers with JavaScript semantics:
    the `\s` class of a regular expression, `String.prototype.trim`,
    ASCII case folding as a regular expression with the `i` flag does it,
    and substring containment as `String.prototype.includes` tests it. */
module Text {

  /** The Indian rupee sign, U+20B9: what `&#8377;` decodes to and the
      label of the amount in `extractData`. */
  const Rupee: char := '\U{20B9}'

  /** The set matched by `\s` in a JavaScript regular expression; `trim`
      removes exactly the same set (WhiteSpace and LineTerminator). */
  predicate IsSpace(c: char) {
    || c == '\t' || c == '\n' || c == '\U{000B}' || c == '\U{000C}' || c == '\r'
    || c == ' ' || c == '\U{00A0}' || c == '\U{1680}'
    || ('\U{2000}' <= c <= '\U{200A}')
    || c == '\U{2028}' || c == '\U{2029}' || c == '\U{202F}' || c == '\U{205F}'
    || c == '\U{3000}' || c == '\U{FEFF}'
  }

  /** The characters `.` refuses to match in a JavaScript regular expression. */
  predicate IsLineTerminator(c: char) {
    c == '\n' || c == '\r' || c == '\U{2028}' || c == '\U{2029}'
  }

  predicate IsDigit(c: char) {
    '0' <= c <= '9'
  }

  predicate IsUpper(c: char) {
    'A' <= c <= 'Z'
  }

  predicate IsLower(c: char) {
    'a' <= c <= 'z'
  }

  predicate IsAsciiLetter(c: char) {
    IsUpper(c) || IsLower(c)
  }

  predicate IsAsciiAlnum(c: char) {
    IsAsciiLetter(c) || IsDigit(c)
  }

  /** Case folding under the `i` flag without the `u` flag: only ASCII
      letters fold to ASCII letters, so folding ASCII is the whole story
      for the ASCII patterns of this program. */
  function Lower(c: char): (r: char)
    ensures IsUpper(c) ==> IsLower(r)
    ensures !IsUpper(c) ==> r == c
  {
    if IsUpper(c) then (c as int + 32) as char else c
  }

  lemma LowerKeepsSpace(c: char, d: char)
    requires Lower(c) == Lower(d)
    ensures IsSpace(c) <==> IsSpace(d)
    ensures IsAsciiAlnum(c) <==> IsAsciiAlnum(d)
    ensures IsLineTerminator(c) <==> IsLineTerminator(d)
  {
  }

  predicate StartsWith(t: string, p: string) {
    |p| <= |t| && t[..|p|] == p
  }

  /** Substring containment, written so that it unfolds one position at a time. */
  predicate Contains(t: string, w: string)
    decreases |t|
  {
    StartsWith(t, w) || (|t| > 0 && Contains(t[1..], w))
  }

  lemma {:induction false} ContainsSuffix(t: string, k: nat, w: string)
    requires k <= |t|
    ensures Contains(t[k..], w) ==> Contains(t, w)
    decreases k
  {
    if k > 0 {
      assert t[k..] == t[1..][k - 1..];
      ContainsSuffix(t[1..], k - 1, w);
    }
  }

  lemma {:induction false} ContainsPrefix(t: string, k: nat, w: string)
    requires k <= |t|
    ensures Contains(t[..k], w) ==> Contains(t, w)
    decreases k
  {
    if StartsWith(t[..k], w) {
      assert t[..k][..|w|] == t[..|w|];
    } else if k > 0 {
      assert t[..k][1..] == t[1..][..k - 1];
      ContainsPrefix(t[1..], k - 1, w);
    }
  }

  /** The position just past the run of `\s` characters starting at `j`. */
  function SkipSpace(s: string, j: nat): (e: nat)
    requires j <= |s|
    ensures j <= e <= |s|
    ensures forall k :: j <= k < e ==> IsSpace(s[k])
    ensures e < |s| ==> !IsSpace(s[e])
    decreases |s| - j
  {
    if j < |s| && IsSpace(s[j]) then SkipSpace(s, j + 1) else j
  }

  /** Leading `\s` characters removed. */
  function TrimStart(t: string): (r: string)
    ensures |r| <= |t| && r == t[|t| - |r|..]
    ensures forall k :: 0 <= k < |t| - |r| ==> IsSpace(t[k])
    ensures |r| > 0 ==> !IsSpace(r[0])
    decreases |t|
  {
    if |t| > 0 && IsSpace(t[0]) then TrimStart(t[1..]) else t
  }

  /** Trailing `\s` characters removed. */
  function TrimEnd(t: string): (r: string)
    ensures |r| <= |t| && r == t[..|r|]
    ensures forall k :: |r| <= k < |t| ==> IsSpace(t[k])
    ensures |r| > 0 ==> !IsSpace(r[|r| - 1])
    decreases |t|
  {
    if |t| > 0 && IsSpace(t[|t| - 1]) then TrimEnd(t[..|t| - 1]) else t
  }

  /** `r` is the slice of `t` starting at `a`, and everything outside it is `\s`. */
  predicate TrimmedSliceAt(t: string, r: string, a: int) {
    && 0 <= a <= |t| - |r|
    && r == t[a..a + |r|]
    && (forall k :: 0 <= k < a ==> IsSpace(t[k]))
    && (forall k :: a + |r| <= k < |t| ==> IsSpace(t[k]))
  }

  /** `String.prototype.trim`: the slice of `t` that neither starts nor
      ends with a `\s` character, everything cut away being `\s`. */
  function Trim(t: string): (r: string)
    ensures |r| > 0 ==> !IsSpace(r[0]) && !IsSpace(r[|r| - 1])
    ensures exists a :: TrimmedSliceAt(t, r, a)
  {
    var u := TrimStart(t);
    var r := TrimEnd(u);
    TrimmedSlice(t, u, r);
    r
  }

  /** Trimming the start, then the end, leaves a slice with only `\s` outside it. */
  lemma TrimmedSlice(t: string, u: string, r: string)
    requires |u| <= |t| && u == t[|t| - |u|..]
    requires forall k :: 0 <= k < |t| - |u| ==> IsSpace(t[k])
    requires |r| <= |u| && r == u[..|r|]
    requires forall k :: |r| <= k < |u| ==> IsSpace(u[k])
    ensures TrimmedSliceAt(t, r, |t| - |u|)
  {
    var a := |t| - |u|;
    assert r == t[a..a + |r|];
    forall k | a + |r| <= k < |t| ensures IsSpace(t[k]) {
      assert t[k] == u[k - a];
    }
  }

  lemma TrimOfTrimmed(t: string)
    requires |t| > 0 ==> !IsSpace(t[0]) && !IsSpace(t[|t| - 1])
    ensures Trim(t) == t
  {
  }
}
